=== FILE: README.md ===
# fgpe — a Dafny model of the Fall Guys ping estimator's core

fgpe watches the Fall Guys client's log to find the game server the client
is connected to. It pings that server, keeps latency statistics for each
connection, and caches IP-location lookups. This project models the
sequential logic behind that, as pure functions over immutable records:

- **`LogReaders`** (`log_reader.dfy`): the incremental tailer of
  `Player.log`. A poll rescans only when the log's mtime changed, may reset
  its read position when `Player-prev.log` signals a rotation, scans the new
  lines for the connect and disconnect markers, and reports `Connected`
  exactly when the stored address is not the sentinel `0.0.0.0`.
- **`FileReaders`** (`file_reader.dfy`): the older tailer, with its transient
  `GameStarting` state and its new-game detection by the `PreStart` start
  time.
- **`SessionStats`** (`session_stats.dfy`): the per-connection latency
  samples, the live summary, and `end_session`'s statistics row, after which
  the connection is forgotten.
- **`Statistics`** (`statistics.dfy`): the parts of Python's `statistics`
  module those rows use. Samples are integers and results are exact `real`s.
- **`IpLookup`** (`ip_lookup.dfy`): the two-tier cache of address and AS
  (autonomous system) entries, with its freshness rule and the update a
  fetched API response makes.
- **`CacheFiles`** (`cache_files.dfy`): the CSV cache files read into and
  written from insertion-ordered dicts.
- **`Pinger`** (`pinger.dfy`): the `host:port` split and the parser of one
  Windows `ping` run's exit code and output.
- **`Text`**, **`Files`** and **`Wrappers`**: the Python `str` operations
  the code relies on, what a poll observes of a file, and `Option`/`Result`.

All I/O becomes parameters:
- a file is `Missing` or `Found(mtime, text)`;
- the clock is an integer `now`;
- the API response is a `map<string, string>`, so its JSON numbers and booleans appear as their text;
- the `ping` run is its exit code and standard output.

Python exceptions become explicit outcomes. Each outcome carries the state
the object is left in, because the code mutates fields before some of its
exceptions (`Poll`, `GetIp`, `EndSession`, `Lookup`).

The model follows the code as written, including three comparisons that
read inverted:
- `log_changed` (fgpe/log_reader.py:45) is true when the `Player-prev.log`
  mtime is *unchanged*. This is a defect; see "Findings" below.
- `file_updated` (fgpe/file_reader.py:29) is true when the mtime is
  unchanged. The `not` at fgpe/file_reader.py:49 compensates, so `GetIp`
  rescans exactly when the mtime changed.
- `file_changed` (fgpe/file_reader.py:42) is true when the game's start time
  is the *same*, so the older tailer rewinds when no new game began.
  `FileReaders.GetIpScans` states this as written. Nothing in the repository
  imports this tailer.

The rotation rule is a parameter of `LogReaders.PollWith`:
- `LogReaders.Poll` uses `ResetWhenUnchanged`, the code as written.
- `ResetWhenChanged` is the comparison that the name `changed` and the
  rotation check imply. The lemmas
  about the correction use it.

## Model

| member | source | states |
|---|---|---|
| LogReaders.Init | fgpe/log_reader.py:21-29 | a new reader stands at position 0, not connected, with address `0.0.0.0`/`0` and no stored mtimes |
| LogReaders.LogUpdated | fgpe/log_reader.py:31-38 | an absent log answers False and changes nothing; a present log's mtime is stored, and the answer is True exactly when it differs from the stored one (so True on the first call) |
| LogReaders.LogChanged | fgpe/log_reader.py:40-47 | as written: an absent `Player-prev.log` answers False and stores nothing; otherwise its mtime is stored and the answer is True exactly when it EQUALS the stored one, never on the first call |
| LogReaders.LogChangedCorrected | fgpe/log_reader.py:40-47 | the intended comparison: True exactly when `Player-prev.log` exists and its mtime differs from the stored one; the same storing behaviour |
| LogReaders.RotationDetected | fgpe/log_reader.py:72-73 | the rotation test a poll makes: `LogChanged` for the code as written, `LogChangedCorrected` for the corrected rule; `ReadStartAsWritten` states when it resets |
| LogReaders.ConnectLineHasToken | fgpe/log_reader.py:62-63 | a line holding the connect marker has a last whitespace token, so `split()[-1]` cannot raise |
| LogReaders.ConnectTarget | fgpe/log_reader.py:63 | on success the line's last token is `ip + ":" + port` with neither half holding a colon; the only failure is `ValueError` |
| LogReaders.ConnectTargetFailsIff | fgpe/log_reader.py:63 | unpacking raises exactly when the last token is not two colon-free halves joined by one colon |
| LogReaders.ScanStep | fgpe/log_reader.py:58-63 | a disconnect line gives no connection even when it also holds the connect marker (the `elif`); a connect-only line gives its target; any other line changes nothing; only a connect-only line can raise |
| LogReaders.Scan | fgpe/log_reader.py:58-63 | the `for line in f` loop, stopping at the first exception; `ScanAppend`, `LastMarkerWins` and `ScanFailsIff` state what it computes |
| LogReaders.ScanAppend | fgpe/log_reader.py:58-63 | scanning `a + b` is scanning `a` and then `b` from where `a` left off, stopping at the first exception |
| LogReaders.LastMarkerWins | fgpe/log_reader.py:53-63 | a scan that completes ends with what the last marker line says: no connection for a disconnect line, the line's target for a connect line, or the starting address when no line holds a marker |
| LogReaders.ScanFailsIff | fgpe/log_reader.py:58-63 | a scan raises exactly when some connect-only line's last token does not unpack |
| LogReaders.BadLineStepFails | fgpe/log_reader.py:62-63 | a connect-only line whose last token does not unpack makes its loop step raise |
| LogReaders.BadLineFailsScan | fgpe/log_reader.py:58-63 | such a line anywhere among the scanned lines makes the scan raise |
| LogReaders.ScanFailureHasBadLine | fgpe/log_reader.py:58-63 | a scan that raises met such a line |
| LogReaders.UpdateIpFromLog | fgpe/log_reader.py:49-68 | an absent log changes nothing; only a present log can raise; a completed read moves the position to the end of the text (or keeps a position beyond it) and changes nothing but position, address and port |
| LogReaders.Report | fgpe/log_reader.py:76-81 | the state is `Connected` exactly when the stored address is not `0.0.0.0`, the details are the stored address and port, and only the state field changes |
| LogReaders.PollWith | fgpe/log_reader.py:70-81 | `get_connection_details` under a given rotation rule; `PollWithReads` states its read path, `RotationReadFromStart` and `NoRotationReadOn` its corrected behaviour |
| LogReaders.Poll | fgpe/log_reader.py:70-81 | a reported state agrees with the stored address; an absent log or an unchanged mtime reads nothing and leaves mtimes, position and address as they were; a present log's mtime is always stored; an exception keeps the address and leaves the position as it was or at 0 |
| LogReaders.ReadStartAsWritten | fgpe/log_reader.py:71-73 | as written, a read starts at 0 exactly when the position already was 0 or `Player-prev.log` exists with the stored mtime |
| LogReaders.ReadStart | fgpe/log_reader.py:72-73 | where a read starts: 0 after a reset, else the stored position; `ReadStartAsWritten` and `PollWithReads` describe it |
| LogReaders.PollWithReads | fgpe/log_reader.py:71-74 | under either rotation rule, a poll of a log with a new mtime scans exactly the lines after the read's start, reports that scan's result, and ends at the end of the text |
| LogReaders.PollReads | fgpe/log_reader.py:70-81 | the code as written: the read starts at 0 exactly when the position already was 0 or `Player-prev.log` still has the stored mtime; the lines after the start are scanned, the position ends at the end of the text, and the prev-log mtime is stored |
| LogReaders.PollIgnoresReadText | fgpe/log_reader.py:56-58 | without a reset, text before the stored position is never consulted: two logs that agree after it poll the same |
| LogReaders.PollIdempotent | fgpe/log_reader.py:31-38 | polling again with the same log reads nothing and returns the same outcome, whatever `Player-prev.log` shows |
| LogReaders.PollLastMarkerWins | fgpe/log_reader.py:58-68 | a poll that reads reports what the last marker line among the new lines says, or the previous address when there is none |
| LogReaders.RotationMissedAsWritten | fgpe/log_reader.py:45 | as written, a rotated log shorter than the old position is not read, so its connect line is missed and the poll reports no connection |
| LogReaders.RotationReadFromStart | fgpe/log_reader.py:40-47 | with the intended comparison, a rotation makes the stored position irrelevant: the poll equals the poll of the same reader at position 0 |
| LogReaders.ReadFromStart | fgpe/log_reader.py:56-68 | a read from position 0 scans every line of the text and ends at its end |
| LogReaders.NoRotationReadOn | fgpe/log_reader.py:72-74 | with the intended comparison, an unrotated log is read on from the stored position and never again from the start |
| Files.Pending | fgpe/log_reader.py:56-58 | the text after `seek(position)` is the rest of the text, or nothing beyond its end |
| Files.EndPosition | fgpe/log_reader.py:66 | `tell()` after the loop is the end of the text, or the seek position when that lies beyond it |
| FileReaders.Create | fgpe/file_reader.py:15-25 | construction succeeds exactly when the log exists, else `ValueError`; a new reader is at position 0 with nothing stored |
| FileReaders.FileUpdated | fgpe/file_reader.py:27-31 | as written: True exactly when the mtime EQUALS the stored one (never on the first call); the mtime is always stored |
| FileReaders.SecondToLastToken | fgpe/file_reader.py:37 | `split()[-2]` succeeds exactly when the line has at least two tokens |
| FileReaders.FileChanged | fgpe/file_reader.py:33-44 | with no `PreStart` line it answers `None` and stores nothing; with one, it succeeds exactly when the first such line has at least two tokens (else `IndexError`), and then stores that line's second-to-last token and answers whether it EQUALS the stored start time |
| FileReaders.ScanStep | fgpe/file_reader.py:60-64 | a connect line sets the address to its whole last token, port included, even when it also holds the disconnect marker; a disconnect-only line clears it; other lines keep it |
| FileReaders.Scan | fgpe/file_reader.py:58-64 | the scan loop over the lines after the position; `ScanSnoc` and `LastMarkerWins` state what it computes |
| FileReaders.ScanSnoc | fgpe/file_reader.py:60-64 | scanning one more line applies one more step to the scan's result |
| FileReaders.LastMarkerWins | fgpe/file_reader.py:60-64 | the last marker line decides the scan: its last token if it holds the connect marker, no address if it holds only the disconnect marker, the starting address if there is no marker line |
| FileReaders.Report | fgpe/file_reader.py:70-75 | the state is `Connected` exactly when the local address is present; the stored address is returned |
| FileReaders.GetIp | fgpe/file_reader.py:46-75 | a vanished log raises; the mtime is stored; an unchanged mtime scans nothing and reports from the cached address; a changed mtime without a `PreStart` line reports `GameStarting` with no address and keeps the position; a `PreStart` line too short for `split()[-2]` raises `IndexError` with only the mtime stored; any other answer agrees with the stored address |
| FileReaders.GetIpScans | fgpe/file_reader.py:55-68 | a scanning poll rewinds to 0 exactly when the start time equals the stored one, scans from there, and stores the end position and the scan's address |
| FileReaders.GameStartingIsTransient | fgpe/file_reader.py:49-54 | after `GameStarting`, polling the same log again reports not connected with no address |
| FileReaders.GetIpIdempotent | fgpe/file_reader.py:46-75 | polling the same log again returns the same outcome, unless the first poll reported `GameStarting` |
| Statistics.Min | fgpe/stats.py:54 | `min` is one of the samples and no sample is smaller |
| Statistics.Max | fgpe/stats.py:55 | `max` is one of the samples and no sample is larger |
| Statistics.Sum | fgpe/stats.py:57 | the sum of the samples; `SumBounds` bounds it and `SumOrderFree` shows it ignores order |
| Statistics.Mean | fgpe/stats.py:57 | `statistics.mean` as the exact sum over the count; `MeanBetween`, `MeanBetweenMinMax` and `MeanOrderFree` describe it |
| Statistics.SumBounds | fgpe/stats.py:57 | bounds on every sample bound the sum by the count times those bounds |
| Statistics.MeanBetween | fgpe/stats.py:57 | bounds on every sample bound the mean |
| Statistics.MeanBetweenMinMax | fgpe/stats.py:57 | the mean lies between `min` and `max` |
| Statistics.Insert | fgpe/stats.py:56 | inserting into a sorted list keeps it sorted and adds exactly that element |
| Statistics.Sort | fgpe/stats.py:56 | `sorted` returns an ascending permutation of the samples |
| Statistics.SortedStartsAtMin | fgpe/stats.py:54-56 | any sorted permutation of the samples starts with their `min` |
| Statistics.SortedEndsAtMax | fgpe/stats.py:54-56 | any sorted permutation of the samples ends with their `max` |
| Statistics.SortEnds | fgpe/stats.py:54-56 | the sorted samples run from `min` to `max` |
| Statistics.SortedBetween | fgpe/stats.py:54-56 | every sorted sample lies between `min` and `max` |
| Statistics.Median | fgpe/stats.py:56 | `median` lies between `min` and `max` |
| Statistics.Middle | fgpe/stats.py:56 | the middle of a sorted list lies between its first and last elements |
| Statistics.SortedUnique | fgpe/stats.py:54-66 | two sorted lists holding the same samples are equal |
| Statistics.SortOrderFree | fgpe/stats.py:54-66 | `sorted` gives the same list for any order of the same samples |
| Statistics.SortSorted | fgpe/stats.py:56 | sorting an already sorted list gives it back |
| Statistics.SumOrderFree | fgpe/stats.py:57 | the sum is the same for any order of the same samples |
| Statistics.MinMaxOrderFree | fgpe/stats.py:54-55 | `min` and `max` are the same for any order of the same samples |
| Statistics.MedianOrderFree | fgpe/stats.py:56 | `median` is the same for any order of the same samples |
| Statistics.MeanOrderFree | fgpe/stats.py:57 | `mean` is the same for any order of the same samples |
| Statistics.QuantilesOrderFree | fgpe/stats.py:58-66 | `quantiles` gives the same result, or the same error, for any order of the same samples |
| Statistics.StatisticsOrderFree | fgpe/stats.py:53-66 | every statistic of a row depends only on which samples were taken, not on their order |
| Statistics.InclusiveCut | fgpe/stats.py:58-61 | an inclusive-method cut point over sorted data lies between its first and last values |
| Statistics.InclusiveCutOnSample | fgpe/stats.py:58-61 | a cut point whose position falls exactly on a sample is that sample |
| Statistics.Quantiles | fgpe/stats.py:58-66 | `quantiles(method='inclusive')` raises `StatisticsError` exactly for `n < 1` or fewer than two samples, and otherwise returns `n - 1` cut points, each between `min` and `max` |
| Statistics.TopQuantile | fgpe/stats.py:58-66 | the 75th/90th column is empty exactly when there are fewer than two samples, and otherwise is the last inclusive cut point, between `min` and `max` |
| Statistics.ThreeSampleExample | fgpe/stats.py:53-66 | samples 10, 20, 30 give min 10, max 30, median 20, mean 20, 75th percentile 25 and 90th percentile 28 |
| SessionStats.Touch | fgpe/stats.py:20 | reading a `defaultdict` entry inserts an empty list for a missing key and changes no samples |
| SessionStats.Samples | fgpe/stats.py:20 | `recent_pings[cd]` read through the `defaultdict`, empty for a missing connection; `Add` and `AddAllTimes` state how it grows |
| SessionStats.Count | fgpe/stats.py:21 | `ping_count[cd]` read through the `defaultdict`, 0 for a missing connection; `Add` and `AddAllCount` state how it grows |
| SessionStats.Valid | fgpe/stats.py:18-37 | what the three dictionaries keep consistent: a count exactly when a start time, equal to the positive number of samples, and no samples for an uncounted connection; `Init`, `AddValid`, `StatsString` and `EndSession` preserve it |
| SessionStats.Init | fgpe/stats.py:18-23 | a new `Stats` holds no samples, counts or start times, no current connection, and is consistent |
| SessionStats.Add | fgpe/stats.py:32-37 | the sample is appended to that connection's list, its count grows by one, its start time is set to `now` only on its first sample, and it becomes the current connection |
| SessionStats.AddFrame | fgpe/stats.py:32-37 | `add` leaves every other connection's samples, count and start time as they were |
| SessionStats.AddValid | fgpe/stats.py:32-37 | `add` keeps the count equal to the number of samples and a start time exactly for counted connections |
| SessionStats.AddAll | fgpe/stats.py:32-37 | a run of `add` calls for one connection, each with its clock reading; `AddAllTimes`, `AddAllCount`, `AddAllFrame` and `AddAllValid` state its effect |
| SessionStats.Window | fgpe/stats.py:43 | the window `xs[-avg_size:]` is a suffix of the samples: the last `avg_size` of them for a positive size, all of them for 0, all but the first `-avg_size` for a negative size |
| SessionStats.StatsString | fgpe/stats.py:39-47 | the summary reports the last sample as current, `min`/`max` over the whole session, the mean of the window and `min(len, avg_size)` as its size; no samples raise `IndexError`, an empty window raises `StatisticsError`; the read inserts the `defaultdict` entry and keeps the dictionaries consistent |
| SessionStats.RollingAverageBetween | fgpe/stats.py:40-43 | the rolling average lies between the session's `min` and `max` |
| SessionStats.EndSession | fgpe/stats.py:49-86 | no connection, or the `0.0.0.0` sentinel, changes nothing; no samples raise `ValueError` and a missing start time `KeyError`; otherwise the row carries start time, `now`, address, count, and the `min`, `max`, `median`, `mean`, 75th and 90th percentiles of the samples, in order (the percentiles within `min`..`max` and empty together), and the connection leaves all three dictionaries |
| SessionStats.EndSessionCounts | fgpe/stats.py:49-75 | in a consistent state, ending a session with samples always writes a row, whose count is the number of samples |
| SessionStats.AddAllTimes | fgpe/stats.py:32-37 | adding a run of samples appends exactly their values, in order |
| SessionStats.AddAllCount | fgpe/stats.py:32-37 | adding a run of samples grows the count by their number |
| SessionStats.AddAllSamples | fgpe/stats.py:32-37 | adding a run of samples appends their values and counts them |
| SessionStats.AddAllFrame | fgpe/stats.py:32-37 | a run of samples keeps the first sample's start time and touches no other connection |
| SessionStats.AddAllValid | fgpe/stats.py:32-37 | a run of samples keeps the dictionaries consistent |
| SessionStats.EndAfterAdds | fgpe/stats.py:49-86 | ending a session whose state differs from an earlier one only by the connection's samples writes the row of exactly those samples, and restores the earlier dictionaries less any empty entry for the connection |
| SessionStats.SessionRoundTrip | fgpe/stats.py:32-86 | from a consistent state in which the connection has no session, its samples followed by `end_session` write the row of exactly those samples, started at the first sample's time, and leave the dictionaries as they were less any empty entry for the connection |
| IpLookup.IsIpInfoFresh | fgpe/ip_lookup.py:98-120 | an entry is fresh exactly when the address is cached, its AS is cached, the AS has not changed since the address was fetched (equal times count as fresh), and the AS was confirmed no more than seven days ago (the boundary counts as fresh) |
| IpLookup.ResponseAttrs | fgpe/ip_lookup.py:138-142 | the five location attributes are read from the response; a missing one raises `KeyError` |
| IpLookup.RecordAs | fgpe/ip_lookup.py:145-171 | a new or changed AS is recorded with both times set to `now`; an unchanged one only has its confirmation time moved to `now`; every other AS entry is kept |
| IpLookup.Lookup | fgpe/ip_lookup.py:122-176 | a fresh address is served with both caches unchanged; otherwise a missing or blank `as` field raises before anything is stored; with an `as` token, the lookup is fetched exactly when all five attributes are present, and otherwise raises `KeyError` with only the address entry (response, AS number, `now`) stored; a fetch stores that entry and records the AS entry |
| IpLookup.FetchedIsFresh | fgpe/ip_lookup.py:114-135 | after a fetch the address is fresh at the same moment, so an immediate second lookup is served from the cache |
| IpLookup.AttributeChangeInvalidates | fgpe/ip_lookup.py:159-171 | a new or changed AS makes every other address under it fetched strictly earlier stale, at any later time |
| IpLookup.FetchKeepsOtherAs | fgpe/ip_lookup.py:159-171 | a fetch does not change the freshness of addresses under other AS numbers |
| IpLookup.FreshnessExpires | fgpe/ip_lookup.py:117-118 | a fresh entry was fresh at every earlier moment, and it is fresh exactly up to seven days after its AS was confirmed |
| CacheFiles.Get | fgpe/ip_lookup.py:65-69 | `d.get(k)` on an insertion-ordered dict; `GetAbsent` and `PutGet` describe it |
| CacheFiles.GetAbsent | fgpe/ip_lookup.py:65-69 | a dict lookup finds nothing exactly when no entry has the key |
| CacheFiles.Put | fgpe/ip_lookup.py:69 | storing under a new key appends the entry at the end; storing under an existing key keeps the size |
| CacheFiles.PutGet | fgpe/ip_lookup.py:69 | after storing, the key holds the new row and every other key what it held |
| CacheFiles.PutKeys | fgpe/ip_lookup.py:69 | storing under an existing key keeps the keys and their order |
| CacheFiles.PutDistinct | fgpe/ip_lookup.py:69 | storing keeps the keys distinct |
| CacheFiles.Load | fgpe/ip_lookup.py:65-69 | reading rows into a dict succeeds exactly when every row has the key column; otherwise it raises `KeyError` |
| CacheFiles.LoadDistinct | fgpe/ip_lookup.py:65-69 | the loaded dict has distinct keys |
| CacheFiles.LoadKeys | fgpe/ip_lookup.py:65-69 | a loaded dict holds exactly the keys it started with plus the key column of every row read |
| CacheFiles.LoadSnoc | fgpe/ip_lookup.py:68-69 | reading one more row stores it over whatever the earlier rows left |
| CacheFiles.GetCache | fgpe/ip_lookup.py:57-71 | a missing file is an empty cache; a file loads exactly when every row has the key column, and otherwise raises `KeyError`; a loaded cache has distinct keys, and its keys are exactly the rows' key columns |
| CacheFiles.LastDuplicateWins | fgpe/ip_lookup.py:68-69 | among rows with the same key, the last one is the one kept |
| CacheFiles.Fill | fgpe/ip_lookup.py:88-91 | a row is written with exactly the header's columns, its own values kept |
| CacheFiles.SaveCache | fgpe/ip_lookup.py:73-96 | an empty cache writes nothing; a row with a column outside the first row's raises `ValueError`; otherwise every row is written in insertion order under the first row's header |
| CacheFiles.Values | fgpe/ip_lookup.py:83 | `cache.values()`, one row per entry; `ValuesAt` states its order |
| CacheFiles.ValuesAt | fgpe/ip_lookup.py:83 | `cache.values()` lists the rows in insertion order |
| CacheFiles.LoadValues | fgpe/ip_lookup.py:65-69 | reading back the rows of a dict whose rows hold their own keys rebuilds the dict |
| CacheFiles.SaveThenGet | fgpe/ip_lookup.py:57-96 | saving a cache of string-valued rows that share one set of columns and hold their own keys, then reading the file, gives the same cache |
| Pinger.Create | fgpe/pinger.py:19-24 | an address without a colon is the host alone; one with exactly one colon is the host and the port around it; more colons raise `ValueError` |
| Pinger.CreateHostPort | fgpe/pinger.py:20-21 | `host:port` with colon-free parts gives back exactly those parts |
| Pinger.ReplyTime | fgpe/pinger.py:39-41 | fewer than five tokens, or a fifth token without `=`, raises `IndexError`; every other failure is `IndexError` or the `ValueError` of a time that does not parse |
| Pinger.GetPingTime | fgpe/pinger.py:34-46 | a failed run, or output without a `Reply from` line, is `(NotConnected, None)`; otherwise the first such line alone decides the result; `Connected` always carries a time and `NotConnected` never does |
| Pinger.TimeTokenIsWord | fgpe/pinger.py:40 | the token `time=<t>ms` holds no whitespace and splits at `=` into `time` and `<t>ms` |
| Pinger.ReplyTimeReads | fgpe/pinger.py:39-41 | a reply line whose fifth word is `time=<t>ms` reads as `t`, whatever the other words |
| Pinger.SubMillisecondRaises | fgpe/pinger.py:39-40 | a fifth word `time<1ms` raises `IndexError` instead of giving a time |
| Pinger.FirstWithAfter | fgpe/pinger.py:37-38 | the first `Reply from` line is the first one holding the marker, after lines that do not |
| Pinger.LinesRoundTrip | fgpe/pinger.py:37 | output written one line per newline is read back line by line |
| Pinger.PingReportsFirstReply | fgpe/pinger.py:37-46 | a successful run whose first `Reply from` line has `time=<t>ms` as its fifth word reports `(Connected, t)`, whatever follows |
| Text.Contains | fgpe/log_reader.py:59-62 | Python's `sub in line` on strings; `ContainsWordHasToken` and the scans' contracts use it |
| Text.FirstWith | fgpe/pinger.py:37-38 | the index of the first line holding the marker, no earlier line holding it; `None` exactly when no line does |
| Text.LastWithEither | fgpe/log_reader.py:58-63 | the index of the last line holding either of two markers: no later line holds one, and `None` exactly when no line does |
| Text.Split | fgpe/log_reader.py:63 | `str.split()` with no argument; `SplitWords`, `SplitEmptyIff` and `SplitJoinWords` describe it |
| Text.SplitWords | fgpe/log_reader.py:63 | every token of `split()` is non-empty and free of whitespace |
| Text.SplitEmptyIff | fgpe/log_reader.py:63 | `split()` is empty exactly when the text is all whitespace |
| Text.ContainsWordHasToken | fgpe/log_reader.py:62-63 | a line containing a marker that starts with a non-space has a token |
| Text.LastToken | fgpe/log_reader.py:63 | `split()[-1]`, the last whitespace token: a non-empty, space-free word that ends the split; it is defined on lines with a token, which `LogReaders.ConnectLineHasToken` shows every connect line has, so the `IndexError` of `[-1]` cannot arise where the program uses it (fgpe/log_reader.py:62-63, fgpe/file_reader.py:63-64) |
| Text.SplitJoinWords | fgpe/pinger.py:39 | splitting words joined by single spaces gives the words back |
| Text.SplitOn | fgpe/log_reader.py:63 | `split(':')` gives at least one piece and no piece holds the separator |
| Text.JoinSplitOn | fgpe/log_reader.py:63 | joining the pieces of `split(c)` with `c` restores the text |
| Text.SplitJoinOn | fgpe/log_reader.py:63 | splitting separator-free pieces joined by the separator gives them back |
| Text.SplitOnTwo | fgpe/pinger.py:20-21 | `split(c)` has exactly two pieces exactly when `c` occurs once, and the text is then the two pieces around it |
| Text.Strip | fgpe/pinger.py:39 | `str.strip()`; `StripJoinWords` states that words joined by spaces are already stripped |
| Text.StripJoinWords | fgpe/pinger.py:39 | words joined by spaces are their own `strip()` |
| Text.Lines | fgpe/log_reader.py:58 | iterating a text file yields no lines exactly for empty text |
| Text.LinesUnlines | fgpe/log_reader.py:58 | a file written one line per newline is iterated as those lines, each with its newline |
| Text.SplitLines | fgpe/pinger.py:37 | `splitlines()` yields lines without any line-boundary character |
| Text.SplitLinesUnlines | fgpe/pinger.py:37 | `splitlines()` recovers boundary-free lines written one per newline |
| Text.ParseInt | fgpe/pinger.py:41 | `int()` succeeds only on text with something left after `strip()`, and gives a negative number only after a leading `-` |
| Text.ParseShowInt | fgpe/pinger.py:41 | `int(str(i)) == i` for every integer |

## Left out

- `fgpe/overlay.py` (the tkinter window and its timer loop) and `fgpe/__main__.py` (process scanning, log-age checks, downloads, wiring) are I/O orchestration; neither is modelled.
- `fgpe/locations.py` renames three fields of a lookup result and has no logic of its own.
- `setup.py` and `tests/test_intial_startup.py` are packaging and a test of names the shown code does not define.
- HTTP: the request session, its retries and the live query are left out; the API response is a parameter of `IpLookup.Lookup`.
- IpLookup.Lookup: one clock reading `now` stands for both `time.time()` calls, the one in the freshness check (fgpe/ip_lookup.py:117) and the one stamped on a fetched entry (fgpe/ip_lookup.py:131).
- IpLookup.Lookup: the two `save_cache` calls at its end are not composed into its outcome. The caches here are maps without insertion order; `CacheFiles.SaveCache` models the save on its own. So the `ValueError` a save can raise after the caches changed is not part of `Lookup`'s outcome.
- IpLookup.IsIpInfoFresh: timestamps are integers compared exactly; the code stores `str(time.time())` and compares `float`s. Rows missing `asnumber`, `local_freshness` or `local_oldest` (a `KeyError` in the code) cannot occur in the typed entries.
- CacheFiles.SaveCache: the column order within a row, the CSV text itself, the temporary directory and the `shutil.move` (whose failure is only logged) are not modelled; the result is the sequence of rows written.
- CacheFiles.GetCache: the file is given as its parsed rows; malformed CSV and short rows (which `csv.DictReader` pads with `None`) are not modelled.
- CacheFiles.SaveThenGet: response values are strings here. The query at fgpe/ip_lookup.py:29 also returns JSON numbers and booleans (`lat`, `lon`, `offset`, `mobile`, `proxy`, `hosting`); `lookup` stores them as such, and the file gives them back as text. So the round trip holds for string-valued rows only, which is all this model has.
- Filesystem: existence checks, `getmtime`, `open`, `seek`/`tell` are replaced by the `FileView` a poll observes. A file that changes between two of these calls is not modelled.
- LogReaders.UpdateIpFromLog: positions count characters, not bytes, and the text is already decoded; `errors='ignore'` decoding is not modelled.
- FileReaders.GetIp: the log is decoded with the platform's default encoding in the code; a decoding error there is not modelled.
- Pinger.GetPingTime: the `ping` subprocess is left out, so its exit code and output are parameters. Its `encoding='ascii'` decoding, and the `UnicodeDecodeError` it can raise, are not modelled.
- Text.ParseInt: only ASCII digits are accepted; Python's `int()` also accepts digits of other scripts.
- Statistics.Quantiles: this follows Python 3.9 to 3.12, where fewer than two samples raise `StatisticsError`. Python 3.13 accepts a single sample.
- Statistics.Median, Statistics.Mean, Statistics.Quantiles: results are exact rationals (`real`); the program rounds `median`, `mean`, the inclusive quantiles and the `float(...)` conversions (fgpe/stats.py:59, fgpe/stats.py:64) to `float`, and that rounding is not modelled. Each Python result is the correctly rounded float of the exact value computed here.
- SessionStats.StatsString: only the numbers are modelled; the `.1f` text formatting is not.
- SessionStats.EndSession: clock readings are integers passed in, not `datetime.now()`, and the `strftime` text is not modelled. The row is the record of values written; the CSV file and its header are left out.

## Findings

| source | as written | input that shows it | evidently intended | confidence | as-written member | corrected member |
|---|---|---|---|---|---|---|
| fgpe/log_reader.py:45 | `log_changed` answers True when the `Player-prev.log` mtime EQUALS the stored one, so the read position is reset when no rotation happened and kept when one did | A reader at position `|line| + 100` with stored mtimes 1 and 1 sees a new `Player.log` (mtime 2) holding only a connect line, and a `Player-prev.log` with mtime 2. The old position lies beyond the new log's end, so nothing is read and the poll reports no connection. | answer True when the mtime differs, so a rotated log is read from the start | high (not executed) | LogReaders.RotationMissedAsWritten | LogReaders.RotationReadFromStart |

=== FILE: cache_files.dfy ===
/** The cache files of `fgpe/ip_lookup.py` (`get_cache` and `save_cache`):
    each cache is a Python dict from a key to a CSV row, kept in insertion
    order, which decides the file's row order and its header. A row is a map
    from column name to text; the order of columns within a row is not
    modelled. Reading and writing the file itself is left to the caller: the
    file is given as its parsed rows, and saving yields the rows to write. */
module CacheFiles {
  import opened Wrappers

  type Row = map<string, string>

  /** A Python dict: entries in insertion order, no key twice. */
  type Dict = seq<(string, Row)>

  predicate DistinctKeys(d: Dict) {
    forall i, j :: 0 <= i < j < |d| ==> d[i].0 != d[j].0
  }

  /** `d.get(k)`. */
  function Get(d: Dict, k: string): Option<Row>
  {
    if |d| == 0 then None
    else if d[0].0 == k then Some(d[0].1)
    else Get(d[1..], k)
  }

  /** `d.get(k)` is `None` exactly when no entry has key `k`. */
  lemma {:induction false} GetAbsent(d: Dict, k: string)
    ensures Get(d, k).None? <==> forall i :: 0 <= i < |d| ==> d[i].0 != k
  {
    if |d| > 0 && d[0].0 != k {
      GetAbsent(d[1..], k);
      assert forall i :: 1 <= i < |d| ==> d[i] == d[1..][i - 1];
    }
  }

  /** `d[k] = v`: an existing key keeps its place, a new one goes last. */
  function Put(d: Dict, k: string, v: Row): (r: Dict)
    ensures Get(d, k).None? ==> r == d + [(k, v)]
    ensures Get(d, k).Some? ==> |r| == |d|
  {
    if |d| == 0 then [(k, v)]
    else if d[0].0 == k then [(k, v)] + d[1..]
    else
      var rest := Put(d[1..], k, v);
      assert Get(d[1..], k).None? ==> [d[0]] + (d[1..] + [(k, v)]) == d + [(k, v)];
      [d[0]] + rest
  }

  /** After `d[k] = v`, `k` holds `v` and every other key holds what it held. */
  lemma {:induction false} PutGet(d: Dict, k: string, v: Row, k': string)
    ensures Get(Put(d, k, v), k') == if k' == k then Some(v) else Get(d, k')
  {
    if |d| > 0 && d[0].0 != k {
      PutGet(d[1..], k, v, k');
      assert Put(d, k, v)[1..] == Put(d[1..], k, v);
    }
  }

  /** Storing under an existing key leaves the keys and their order as they were. */
  lemma {:induction false} PutKeys(d: Dict, k: string, v: Row)
    requires Get(d, k).Some?
    ensures forall i :: 0 <= i < |d| ==> Put(d, k, v)[i].0 == d[i].0
  {
    if d[0].0 != k {
      PutKeys(d[1..], k, v);
      var r := Put(d, k, v);
      assert forall i :: 1 <= i < |d| ==> r[i] == Put(d[1..], k, v)[i - 1] && d[i] == d[1..][i - 1];
    }
  }

  /** Storing keeps the keys distinct. */
  lemma PutDistinct(d: Dict, k: string, v: Row)
    requires DistinctKeys(d)
    ensures DistinctKeys(Put(d, k, v))
  {
    var r := Put(d, k, v);
    if Get(d, k).None? {
      GetAbsent(d, k);
      forall i, j | 0 <= i < j < |r| ensures r[i].0 != r[j].0 {
        if j == |d| {
          assert r[i] == d[i];
        }
      }
    } else {
      PutKeys(d, k, v);
    }
  }

  /** The rows of a file read into a dict keyed by `field`; a row without
      that column raises `KeyError`. */
  function Load(acc: Dict, rows: seq<Row>, field: string): (res: Result<Dict, PyError>)
    ensures res.Success? <==> forall i :: 0 <= i < |rows| ==> field in rows[i]
    ensures res.Failure? ==> res.error == KeyError
    decreases |rows|
  {
    if |rows| == 0 then Success(acc)
    else if field !in rows[0] then Failure(KeyError)
    else Load(Put(acc, rows[0][field], rows[0]), rows[1..], field)
  }

  /** `get_cache`: a missing file is an empty cache; otherwise each row is
      stored under its `field` column, in file order. */
  function GetCache(file: Option<seq<Row>>, field: string): (res: Result<Dict, PyError>)
    ensures file.None? ==> res == Success([])
    ensures file.Some? ==> (res.Success? <==> forall i :: 0 <= i < |file.value| ==> field in file.value[i])
    ensures res.Failure? ==> res.error == KeyError
    ensures res.Success? ==> DistinctKeys(res.value)
    ensures file.Some? && res.Success? ==> forall k :: Get(res.value, k).Some? <==> KeyedRow(file.value, field, k)
  {
    match file
    case None => Success([])
    case Some(rows) =>
      LoadDistinct([], rows, field);
      assert forall k :: Get([], k).None?;
      LoadKeys([], rows, field);
      Load([], rows, field)
  }

  /** Some row has `k` in its `field` column. */
  predicate KeyedRow(rows: seq<Row>, field: string, k: string) {
    exists i :: 0 <= i < |rows| && field in rows[i] && rows[i][field] == k
  }

  /** A loaded dict holds exactly the keys it started with and the key
      columns of the rows read. */
  lemma {:induction false} LoadKeys(acc: Dict, rows: seq<Row>, field: string)
    ensures Load(acc, rows, field).Success? ==> forall k :: Get(Load(acc, rows, field).value, k).Some? <==>
      Get(acc, k).Some? || KeyedRow(rows, field, k)
    decreases |rows|
  {
    if |rows| > 0 && field in rows[0] {
      var acc' := Put(acc, rows[0][field], rows[0]);
      LoadKeys(acc', rows[1..], field);
      forall k ensures Get(acc', k).Some? <==> Get(acc, k).Some? || k == rows[0][field] {
        PutGet(acc, rows[0][field], rows[0], k);
      }
      forall k ensures KeyedRow(rows, field, k) <==> k == rows[0][field] || KeyedRow(rows[1..], field, k) {
        if KeyedRow(rows, field, k) {
          var i :| 0 <= i < |rows| && field in rows[i] && rows[i][field] == k;
          if i > 0 { assert rows[1..][i - 1] == rows[i]; }
        }
        if KeyedRow(rows[1..], field, k) {
          var i :| 0 <= i < |rows| - 1 && field in rows[1..][i] && rows[1..][i][field] == k;
          assert rows[1..][i] == rows[i + 1];
        }
      }
    }
  }

  lemma {:induction false} LoadDistinct(acc: Dict, rows: seq<Row>, field: string)
    requires DistinctKeys(acc)
    ensures Load(acc, rows, field).Success? ==> DistinctKeys(Load(acc, rows, field).value)
    decreases |rows|
  {
    if |rows| > 0 && field in rows[0] {
      PutDistinct(acc, rows[0][field], rows[0]);
      LoadDistinct(Put(acc, rows[0][field], rows[0]), rows[1..], field);
    }
  }

  /** Loading one more row stores it over whatever the earlier rows left. */
  lemma {:induction false} LoadSnoc(acc: Dict, rows: seq<Row>, row: Row, field: string)
    ensures Load(acc, rows + [row], field) ==
      match Load(acc, rows, field)
      case Failure(e) => Failure(e)
      case Success(d) => if field !in row then Failure(KeyError) else Success(Put(d, row[field], row))
    decreases |rows|
  {
    if |rows| == 0 {
      assert rows + [row] == [row];
    } else {
      assert (rows + [row])[0] == rows[0];
      assert (rows + [row])[1..] == rows[1..] + [row];
      if field in rows[0] {
        LoadSnoc(Put(acc, rows[0][field], rows[0]), rows[1..], row, field);
      }
    }
  }

  /** The last of several rows with the same key is the one kept. */
  lemma {:induction false} LastDuplicateWins(rows: seq<Row>, field: string, i: nat)
    requires GetCache(Some(rows), field).Success?
    requires i < |rows| && field in rows[i]
    requires forall j :: i < j < |rows| && field in rows[j] ==> rows[j][field] != rows[i][field]
    ensures Get(GetCache(Some(rows), field).value, rows[i][field]) == Some(rows[i])
    decreases |rows|
  {
    var init := rows[..|rows| - 1];
    var last := rows[|rows| - 1];
    assert init + [last] == rows;
    LoadSnoc([], init, last, field);
    var d := Load([], init, field).value;
    PutGet(d, last[field], last, rows[i][field]);
    if i < |rows| - 1 {
      LastDuplicateWins(init, field, i);
    }
  }

  /** A row as `csv.DictWriter` writes it under `header`: absent columns
      empty. */
  function Fill(row: Row, header: set<string>): (r: Row)
    ensures r.Keys == header
    ensures forall k :: k in header && k in row ==> r[k] == row[k]
  {
    map k | k in header :: if k in row then row[k] else ""
  }

  /** `save_cache`: an empty cache writes nothing (`None`). Otherwise the
      header is the first row's columns, every row is written in insertion
      order, and a row with a column outside the header makes the writer
      raise `ValueError` before the file is replaced. */
  function SaveCache(d: Dict): (res: Result<Option<seq<Row>>, PyError>)
    ensures |d| == 0 ==> res == Success(None)
    ensures res.Failure? <==> exists i :: 0 <= i < |d| && !(d[i].1.Keys <= d[0].1.Keys)
    ensures res.Failure? ==> res.error == ValueError
    ensures res.Success? && |d| > 0 ==>
      && res.value.Some? && |res.value.value| == |d|
      && forall i :: 0 <= i < |d| ==> res.value.value[i] == Fill(d[i].1, d[0].1.Keys)
  {
    if |d| == 0 then Success(None)
    else
      var header := d[0].1.Keys;
      if exists i :: 0 <= i < |d| && !(d[i].1.Keys <= header) then Failure(ValueError)
      else Success(Some(seq(|d|, i requires 0 <= i < |d| => Fill(d[i].1, header))))
  }

  /** `d.values()`, in insertion order. */
  function Values(d: Dict): (vs: seq<Row>)
    ensures |vs| == |d|
  {
    if |d| == 0 then [] else [d[0].1] + Values(d[1..])
  }

  lemma {:induction false} ValuesAt(d: Dict, i: nat)
    requires i < |d|
    ensures Values(d)[i] == d[i].1
  {
    if i > 0 {
      ValuesAt(d[1..], i - 1);
    }
  }

  /** Every row holds its own key in the `field` column. */
  predicate KeyedBy(d: Dict, field: string) {
    forall i :: 0 <= i < |d| ==> field in d[i].1 && d[i].1[field] == d[i].0
  }

  /** The first `n` entries of a dict with distinct keys lack the key of entry `n`. */
  lemma AbsentBefore(d: Dict, n: nat)
    requires n < |d| && DistinctKeys(d)
    ensures Get(d[..n], d[n].0).None?
  {
    assert forall i :: 0 <= i < n ==> d[..n][i] == d[i];
    GetAbsent(d[..n], d[n].0);
  }

  /** Loading the first value of `d` appends its entry. */
  lemma LoadFirst(acc: Dict, d: Dict, field: string)
    requires |d| > 0 && Get(acc, d[0].0).None?
    requires field in d[0].1 && d[0].1[field] == d[0].0
    ensures Load(acc, Values(d), field) == Load(acc + [d[0]], Values(d[1..]), field)
  {
    var vs := Values(d);
    assert vs == [d[0].1] + Values(d[1..]);
    assert vs[1..] == Values(d[1..]);
  }

  lemma LoadStep(d: Dict, n: nat, field: string)
    requires n < |d| && Get(d[..n], d[n].0).None?
    requires field in d[n].1 && d[n].1[field] == d[n].0
    ensures Load(d[..n], Values(d[n..]), field) == Load(d[..n + 1], Values(d[n + 1..]), field)
  {
    assert d[n..][0] == d[n];
    LoadFirst(d[..n], d[n..], field);
    assert d[..n] + [d[n]] == d[..n + 1];
    assert d[n..][1..] == d[n + 1..];
  }

  /** Loading the values of the entries from `n` on, after the first `n`,
      rebuilds the whole dict. */
  lemma {:induction false} LoadValues(d: Dict, n: nat, field: string)
    requires n <= |d| && DistinctKeys(d) && KeyedBy(d, field)
    ensures Load(d[..n], Values(d[n..]), field) == Success(d)
    decreases |d| - n
  {
    if n == |d| {
      assert d[..n] == d;
    } else {
      AbsentBefore(d, n);
      LoadStep(d, n, field);
      LoadValues(d, n + 1, field);
    }
  }

  /** Saving a cache whose rows share one set of columns, each row holding
      its key in `field`, and reading the file back gives the same cache. */
  lemma SaveThenGet(d: Dict, field: string)
    requires |d| > 0 && DistinctKeys(d) && KeyedBy(d, field)
    requires forall i :: 0 <= i < |d| ==> d[i].1.Keys == d[0].1.Keys
    ensures SaveCache(d).Success? && SaveCache(d).value.Some?
    ensures GetCache(SaveCache(d).value, field) == Success(d)
  {
    var written := SaveCache(d).value.value;
    forall i | 0 <= i < |d| ensures written[i] == Values(d)[i] {
      ValuesAt(d, i);
      assert Fill(d[i].1, d[0].1.Keys) == d[i].1;
    }
    assert written == Values(d);
    LoadValues(d, 0, field);
    assert d[..0] == [] && d[0..] == d;
  }
}

=== FILE: file_reader.dfy ===
/** The older log tailer (`fgpe/file_reader.py`): it adds a transient
    `GameStarting` state, reported while the log holds no `PreStart` line, and
    tells a new game by the start time that line carries. Its comparisons read
    inverted: `file_updated` is True when the mtime is UNCHANGED (the caller's
    `not` compensates) and `file_changed` is True when the start time is the
    SAME. The model keeps both as written. */
module FileReaders {
  import opened Wrappers
  import opened Text
  import opened Files
  import LogReaders

  datatype ServerState = Connected | NotConnected | GameStarting

  /** The log lines the reader looks for, tag + message as in `LogReaders`. */
  const PreStartMarker: string := "[GlobalGameStateClient]" + ".PreStart called at"
  const DisconnectMarker: string := "[FG_UnityInternetNetworkManager]" + " Client Disconnected from Server"
  const ConnectMarker: string := LogReaders.ConnectMarker

  /** The fields of a `FileReader`. */
  datatype FileReader = FileReader(
    position: nat,
    currentIpAddress: Option<string>,
    serverState: ServerState,
    gameStartTime: Option<string>,
    logMtime: Option<int>)

  /** The result of `get_ip`: the state and address it returns, or the
      exception it raises; either way the reader it leaves. */
  datatype GetIpOutcome =
    | Got(reader: FileReader, state: ServerState, ip: Option<string>)
    | Raised(reader: FileReader, error: PyError)

  /** `FileReader()`: refuses to start (`ValueError`) when there is no log. */
  function Create(logExists: bool): (res: Result<FileReader, PyError>)
    ensures res.Success? <==> logExists
    ensures res.Success? ==> res.value.position == 0 && res.value.currentIpAddress.None?
                             && res.value.serverState == NotConnected
                             && res.value.gameStartTime.None? && res.value.logMtime.None?
  {
    if logExists then Success(FileReader(0, None, NotConnected, None, None))
    else Failure(ValueError)
  }

  /** `file_updated` as written: True when the mtime EQUALS the stored one
      (never on the first call); the observed mtime is always stored. */
  function FileUpdated(r: FileReader, mtime: int): (res: (bool, FileReader))
    ensures res.1 == r.(logMtime := Some(mtime))
    ensures res.0 <==> r.logMtime == Some(mtime)
    ensures r.logMtime.None? ==> !res.0
  {
    (r.logMtime == Some(mtime), r.(logMtime := Some(mtime)))
  }

  /** `line.split()[-2]`: the second-to-last token, `IndexError` with fewer than two. */
  function SecondToLastToken(line: string): (res: Result<string, PyError>)
    ensures res.Success? <==> |Split(line)| >= 2
  {
    var tokens := Split(line);
    if |tokens| < 2 then Failure(IndexError) else Success(tokens[|tokens| - 2])
  }

  /** `file_changed` as written: the start time of the game is the
      second-to-last token of the first `PreStart` line of the whole log.
      With no such line it answers `None` and stores nothing; otherwise it
      stores the start time and answers whether it EQUALS the stored one. */
  function FileChanged(r: FileReader, text: string): (res: Result<(Option<bool>, FileReader), PyError>)
    ensures FirstWith(Lines(text), PreStartMarker).None? ==> res == Success((None, r))
    ensures res.Success? && res.value.0.Some? ==>
      var k := FirstWith(Lines(text), PreStartMarker);
      && k.Some? && res.value.1.gameStartTime.Some?
      && SecondToLastToken(Lines(text)[k.value]) == Success(res.value.1.gameStartTime.value)
      && res.value.1 == r.(gameStartTime := res.value.1.gameStartTime)
      && (res.value.0.value <==> r.gameStartTime == res.value.1.gameStartTime)
    ensures var k := FirstWith(Lines(text), PreStartMarker);
      k.Some? ==> (res.Success? <==> |Split(Lines(text)[k.value])| >= 2) && (res.Success? ==> res.value.0.Some?)
    ensures res.Failure? ==> res.error == IndexError
  {
    var lines := Lines(text);
    match FirstWith(lines, PreStartMarker)
    case None => Success((None, r))
    case Some(k) =>
      match SecondToLastToken(lines[k])
      case Failure(e) => Failure(e)
      case Success(start) =>
        Success((Some(r.gameStartTime == Some(start)), r.(gameStartTime := Some(start))))
  }

  /** One line of the scan: a disconnect line clears the address, then (not
      `elif`) a connect line sets it to the line's whole last token, port included. */
  function ScanStep(line: string, ip: Option<string>): (res: Option<string>)
    ensures Contains(line, ConnectMarker) ==> |Split(line)| > 0 && res == Some(LastToken(line))
    ensures !Contains(line, ConnectMarker) && Contains(line, DisconnectMarker) ==> res.None?
    ensures !Contains(line, ConnectMarker) && !Contains(line, DisconnectMarker) ==> res == ip
  {
    var afterDisconnect := if Contains(line, DisconnectMarker) then None else ip;
    if Contains(line, ConnectMarker) then
      LogReaders.ConnectLineHasToken(line);
      Some(LastToken(line))
    else afterDisconnect
  }

  /** The scan loop over the lines after the position. */
  function Scan(lines: seq<string>, ip: Option<string>): Option<string>
  {
    if |lines| == 0 then ip else Scan(lines[1..], ScanStep(lines[0], ip))
  }

  /** The index of the last line holding either marker. */
  function LastMarker(lines: seq<string>): Option<nat> {
    LastWithEither(lines, DisconnectMarker, ConnectMarker)
  }

  lemma {:induction false} ScanSnoc(lines: seq<string>, line: string, ip: Option<string>)
    ensures Scan(lines + [line], ip) == ScanStep(line, Scan(lines, ip))
    decreases |lines|
  {
    if |lines| == 0 {
      assert [line][1..] == [];
    } else {
      assert (lines + [line])[1..] == lines[1..] + [line];
      ScanSnoc(lines[1..], line, ScanStep(lines[0], ip));
    }
  }

  /** The last marker line wins; on a line with both markers the connect wins,
      being tested second. */
  lemma {:induction false} LastMarkerWins(lines: seq<string>, ip: Option<string>)
    ensures match LastMarker(lines)
      case None => Scan(lines, ip) == ip
      case Some(k) =>
        if Contains(lines[k], ConnectMarker) then
          |Split(lines[k])| > 0 && Scan(lines, ip) == Some(LastToken(lines[k]))
        else Scan(lines, ip).None?
    decreases |lines|
  {
    if |lines| > 0 {
      var init := lines[..|lines| - 1];
      assert init + [lines[|lines| - 1]] == lines;
      ScanSnoc(init, lines[|lines| - 1], ip);
      LastMarkerWins(init, ip);
    }
  }

  /** The state `get_ip` derives from the local address, returned with the
      stored one. */
  function Report(r: FileReader, ip: Option<string>): (out: GetIpOutcome)
    ensures out.Got? && out.reader == r.(serverState := out.state)
    ensures out.state == (if ip.None? then NotConnected else Connected)
    ensures out.ip == r.currentIpAddress
  {
    var state := if ip.None? then NotConnected else Connected;
    Got(r.(serverState := state), state, r.currentIpAddress)
  }

  /** One call of `get_ip` on the log as observed. */
  function GetIp(r: FileReader, log: FileView): (out: GetIpOutcome)
    // A log that has gone raises from `getmtime`.
    ensures log.Missing? ==> out == Raised(r, FileNotFoundError)
    ensures log.Found? ==> out.reader.logMtime == Some(log.mtime)
    // An unchanged mtime: no scan, the state comes from the cached address.
    ensures log.Found? && r.logMtime == Some(log.mtime) ==>
      && out.Got? && out.reader == r.(serverState := out.state) && out.ip == r.currentIpAddress
      && (out.state == Connected <==> r.currentIpAddress.Some?)
    // A changed mtime but no `PreStart` line: the game is starting.
    ensures log.Found? && r.logMtime != Some(log.mtime) && FirstWith(Lines(log.text), PreStartMarker).None? ==>
      out == Got(r.(logMtime := Some(log.mtime), currentIpAddress := None, serverState := GameStarting),
                 GameStarting, None)
    // A `PreStart` line too short for `split()[-2]` raises after the mtime is stored.
    ensures log.Found? && r.logMtime != Some(log.mtime) && FileChanged(r.(logMtime := Some(log.mtime)), log.text).Failure? ==>
      out == Raised(r.(logMtime := Some(log.mtime)), IndexError)
    // Whenever an address is returned, the state agrees with it.
    ensures out.Got? && out.state != GameStarting ==>
      out.ip == out.reader.currentIpAddress && (out.state == Connected <==> out.ip.Some?)
  {
    match log
    case Missing => Raised(r, FileNotFoundError)
    case Found(mtime, text) =>
      var (updated, r1) := FileUpdated(r, mtime);
      if updated then Report(r1, r.currentIpAddress)
      else
        match FileChanged(r1, text)
        case Failure(e) => Raised(r1, e)
        case Success((changed, r2)) =>
          if changed.None? then
            Got(r2.(currentIpAddress := None, serverState := GameStarting), GameStarting, None)
          else
            var r3 := if changed.value then r2.(position := 0) else r2;
            var ip := Scan(Lines(Pending(text, r3.position)), r.currentIpAddress);
            Report(r3.(position := EndPosition(text, r3.position), currentIpAddress := ip), ip)
  }

  /** A poll that scans: the position is reset exactly when the `PreStart`
      start time equals the stored one, the scan runs from there, and the
      position and cached address end at the end of the text and the scan's
      result. */
  lemma GetIpScans(r: FileReader, mtime: int, text: string)
    requires r.logMtime != Some(mtime)
    requires FileChanged(r.(logMtime := Some(mtime)), text).Success?
    requires FileChanged(r.(logMtime := Some(mtime)), text).value.0.Some?
    ensures var fc := FileChanged(r.(logMtime := Some(mtime)), text).value;
      var start := if fc.0.value then 0 else r.position;
      var ip := Scan(Lines(Pending(text, start)), r.currentIpAddress);
      var out := GetIp(r, Found(mtime, text));
      && (fc.0.value <==> r.gameStartTime == fc.1.gameStartTime)
      && out.Got? && out.ip == ip && out.reader.currentIpAddress == ip
      && out.reader.position == EndPosition(text, start)
      && out.reader.gameStartTime == fc.1.gameStartTime
      && (out.state == Connected <==> ip.Some?)
  {
  }

  /** `GameStarting` is reported once: polling again without the log changing
      reports no connection. */
  lemma GameStartingIsTransient(r: FileReader, mtime: int, text: string)
    requires GetIp(r, Found(mtime, text)).Got?
    requires GetIp(r, Found(mtime, text)).state == GameStarting
    ensures var again := GetIp(GetIp(r, Found(mtime, text)).reader, Found(mtime, text));
      again.Got? && again.state == NotConnected && again.ip.None?
  {
  }

  /** Polling again without the log changing reports the same answer, unless
      the first poll reported `GameStarting`. */
  lemma GetIpIdempotent(r: FileReader, mtime: int, text: string)
    requires GetIp(r, Found(mtime, text)).Got?
    requires GetIp(r, Found(mtime, text)).state != GameStarting
    ensures var first := GetIp(r, Found(mtime, text));
      GetIp(first.reader, Found(mtime, text)) == first
  {
  }
}

=== FILE: files.dfy ===
/** What one poll observes of a file on disk. */
module Files {

  /** A file as seen at one instant: absent, or present with its modification
      time and its decoded text. */
  datatype FileView = Missing | Found(mtime: int, text: string)

  /** The text iterating a file yields after `seek(position)`: nothing when
      the position lies beyond the end. */
  function Pending(text: string, position: nat): (p: string)
    ensures position <= |text| ==> text == text[..position] + p
    ensures position > |text| ==> p == ""
  {
    if position <= |text| then text[position..] else ""
  }

  /** Where `tell()` stands after iterating to the end from `position`: the end
      of the text, or the seek position itself when that lies beyond it. */
  function EndPosition(text: string, position: nat): (e: nat)
    ensures position <= |text| ==> e == |text|
    ensures position > |text| ==> e == position
  {
    if position <= |text| then |text| else position
  }
}

=== FILE: ip_lookup.dfy ===
/** The two-tier lookup cache (`fgpe/ip_lookup.py`). Each looked-up address
    is cached with the time it was fetched and the autonomous system (AS)
    announcing it; each AS is cached with its location attributes, the time
    they were last confirmed (`local_freshness`) and the time they last
    changed (`local_oldest`). An address's entry is trusted while its AS
    entry was confirmed within the last seven days and has not changed since
    the address was fetched. Timestamps are whole seconds; the API response
    is a parameter. */
module IpLookup {
  import opened Wrappers
  import opened Text

  /** Seven days, in seconds. */
  const OldestFreshness: int := 7 * 24 * 60 * 60

  /** The location attributes compared to decide whether an AS changed. */
  datatype AsAttrs = AsAttrs(org: string, continent: string, country: string, region: string, city: string)

  /** An address's entry: the API response as received, with the AS number
      and fetch time the lookup adds to it (these two take precedence over
      any same-named field of the response). */
  datatype IpEntry = IpEntry(response: map<string, string>, asNumber: string, localFreshness: int)

  datatype AsEntry = AsEntry(asNumber: string, attrs: AsAttrs, localFreshness: int, localOldest: int)

  datatype Caches = Caches(ipCache: map<string, IpEntry>, asCache: map<string, AsEntry>)

  /** The result of `lookup`: served from the cache, fetched (the response
      given was used), or an exception; each with the caches it leaves. */
  datatype LookupOutcome =
    | Served(caches: Caches, entry: IpEntry)
    | Fetched(caches: Caches, entry: IpEntry)
    | Raised(caches: Caches, error: PyError)

  /** `is_ip_info_fresh`: the checks in the order the code makes them. */
  function IsIpInfoFresh(c: Caches, ip: string, now: int): (isFresh: bool)
    ensures isFresh <==>
      && ip in c.ipCache
      && c.ipCache[ip].asNumber in c.asCache
      && c.asCache[c.ipCache[ip].asNumber].localOldest <= c.ipCache[ip].localFreshness
      && now - OldestFreshness <= c.asCache[c.ipCache[ip].asNumber].localFreshness
  {
    if ip !in c.ipCache then false
    else
      var info := c.ipCache[ip];
      if info.asNumber !in c.asCache then false
      else
        var asInfo := c.asCache[info.asNumber];
        if info.localFreshness < asInfo.localOldest then false
        else if asInfo.localFreshness < now - OldestFreshness then false
        else true
  }

  /** The attribute fields of the response, `KeyError` for the first one missing. */
  function ResponseAttrs(response: map<string, string>): (res: Result<AsAttrs, PyError>)
    ensures res.Success? <==> "org" in response && "continent" in response && "country" in response
                              && "region" in response && "city" in response
    ensures res.Success? ==> res.value == AsAttrs(response["org"], response["continent"], response["country"],
                                                  response["region"], response["city"])
    ensures res.Failure? ==> res.error == KeyError
  {
    if "org" !in response || "continent" !in response || "country" !in response
       || "region" !in response || "city" !in response
    then Failure(KeyError)
    else Success(AsAttrs(response["org"], response["continent"], response["country"],
                         response["region"], response["city"]))
  }

  /** The AS entry after a fetch: a new or changed AS is (re)recorded with
      both times set to `now`; an unchanged one only has its confirmation
      time moved to `now`. */
  function RecordAs(asCache: map<string, AsEntry>, asNumber: string, attrs: AsAttrs, now: int): (r: map<string, AsEntry>)
    ensures asNumber in r && r[asNumber].localFreshness == now
    ensures r[asNumber].attrs == attrs
    ensures asNumber !in asCache || asCache[asNumber].attrs != attrs ==>
      r[asNumber] == AsEntry(asNumber, attrs, now, now)
    ensures asNumber in asCache && asCache[asNumber].attrs == attrs ==>
      r[asNumber] == asCache[asNumber].(localFreshness := now)
    ensures r - {asNumber} == asCache - {asNumber}
    ensures forall a :: a != asNumber ==> (a in r <==> a in asCache) && (a in r ==> r[a] == asCache[a])
  {
    if asNumber !in asCache || asCache[asNumber].attrs != attrs then
      asCache[asNumber := AsEntry(asNumber, attrs, now, now)]
    else
      asCache[asNumber := asCache[asNumber].(localFreshness := now)]
  }

  /** `lookup`: a fresh address is served from the cache untouched.
      Otherwise the response is used: a missing `as` field raises `KeyError`
      and a blank one `IndexError`, before anything is stored; then the
      address's entry is stored, and only then can a missing attribute field
      raise `KeyError`; finally the AS entry is recorded. */
  function Lookup(c: Caches, ip: string, now: int, response: map<string, string>): (out: LookupOutcome)
    ensures IsIpInfoFresh(c, ip, now) ==> out == Served(c, c.ipCache[ip])
    ensures out.Served? ==> IsIpInfoFresh(c, ip, now)
    ensures !IsIpInfoFresh(c, ip, now) && "as" !in response ==> out == Raised(c, KeyError)
    ensures !IsIpInfoFresh(c, ip, now) && "as" in response && |Split(response["as"])| == 0 ==>
      out == Raised(c, IndexError)
    ensures out.Raised? ==> out.caches.asCache == c.asCache
    ensures out.Fetched? ==>
      && "as" in response && |Split(response["as"])| > 0
      && out.entry == IpEntry(response, Split(response["as"])[0], now)
      && out.caches.ipCache == c.ipCache[ip := out.entry]
      && ResponseAttrs(response).Success?
      && out.caches.asCache == RecordAs(c.asCache, out.entry.asNumber, ResponseAttrs(response).value, now)
    ensures !IsIpInfoFresh(c, ip, now) && "as" in response && |Split(response["as"])| > 0 ==>
      && (out.Fetched? <==> ResponseAttrs(response).Success?)
      && (out.Raised? ==>
            && out.error == KeyError
            && out.caches.ipCache == c.ipCache[ip := IpEntry(response, Split(response["as"])[0], now)])
    ensures out.Raised? && out.caches != c ==>
      && out.error == KeyError && ResponseAttrs(response).Failure?
      && out.caches.ipCache == c.ipCache[ip := IpEntry(response, Split(response["as"])[0], now)]
  {
    if IsIpInfoFresh(c, ip, now) then Served(c, c.ipCache[ip])
    else if "as" !in response then Raised(c, KeyError)
    else
      var asTokens := Split(response["as"]);
      if |asTokens| == 0 then Raised(c, IndexError)
      else
        var entry := IpEntry(response, asTokens[0], now);
        var c1 := c.(ipCache := c.ipCache[ip := entry]);
        match ResponseAttrs(response)
        case Failure(e) => Raised(c1, e)
        case Success(attrs) => Fetched(c1.(asCache := RecordAs(c.asCache, entry.asNumber, attrs, now)), entry)
  }

  /** Timestamps never run ahead of the clock: every AS entry's attributes
      were last changed no later than `now`. */
  predicate NotAhead(c: Caches, now: int) {
    forall a :: a in c.asCache ==> c.asCache[a].localOldest <= now
  }

  /** After a fetch the address is fresh at the same moment, so an immediate
      second lookup is served from the cache without using a response. */
  lemma FetchedIsFresh(c: Caches, ip: string, now: int, response: map<string, string>, again: map<string, string>)
    requires NotAhead(c, now)
    requires Lookup(c, ip, now, response).Fetched?
    ensures var out := Lookup(c, ip, now, response);
      && IsIpInfoFresh(out.caches, ip, now)
      && Lookup(out.caches, ip, now, again) == Served(out.caches, out.entry)
  {
    var out := Lookup(c, ip, now, response);
    var asNumber := out.entry.asNumber;
    assert out.caches.ipCache[ip] == out.entry;
    assert out.caches.asCache[asNumber].localOldest <= now by {
      if asNumber in c.asCache {
        assert c.asCache[asNumber].localOldest <= now;
      }
    }
  }

  /** A changed (or new) AS invalidates every other address under it that
      was fetched before the change: at any later moment it is stale. */
  lemma AttributeChangeInvalidates(c: Caches, ip: string, now: int, response: map<string, string>,
                                   other: string, later: int)
    requires Lookup(c, ip, now, response).Fetched?
    requires var asNumber := Lookup(c, ip, now, response).entry.asNumber;
      && (asNumber !in c.asCache || c.asCache[asNumber].attrs != ResponseAttrs(response).value)
    requires other != ip && other in c.ipCache
    requires c.ipCache[other].asNumber == Lookup(c, ip, now, response).entry.asNumber
    requires c.ipCache[other].localFreshness < now
    ensures !IsIpInfoFresh(Lookup(c, ip, now, response).caches, other, later)
  {
  }

  /** Addresses under other AS numbers keep their freshness through a fetch. */
  lemma FetchKeepsOtherAs(c: Caches, ip: string, now: int, response: map<string, string>,
                          other: string, later: int)
    requires Lookup(c, ip, now, response).Fetched?
    requires other != ip && other in c.ipCache
    requires c.ipCache[other].asNumber != Lookup(c, ip, now, response).entry.asNumber
    ensures IsIpInfoFresh(Lookup(c, ip, now, response).caches, other, later) == IsIpInfoFresh(c, other, later)
  {
    var out := Lookup(c, ip, now, response);
    assert out.caches.ipCache[other] == c.ipCache[other];
  }

  /** Freshness only runs out: an entry fresh at some moment was fresh at
      every earlier one, and it is fresh exactly up to seven days after its AS
      was last confirmed. */
  lemma FreshnessExpires(c: Caches, ip: string, earlier: int, now: int)
    requires earlier <= now && IsIpInfoFresh(c, ip, now)
    ensures IsIpInfoFresh(c, ip, earlier)
    ensures var confirmed := c.asCache[c.ipCache[ip].asNumber].localFreshness;
      IsIpInfoFresh(c, ip, confirmed + OldestFreshness) && !IsIpInfoFresh(c, ip, confirmed + OldestFreshness + 1)
  {
  }
}

=== FILE: log_reader.dfy ===
/** The incremental tailer of the game client's `Player.log` and the
    connection state derived from it (`fgpe/log_reader.py`).

    A poll observes the log (absent, or its mtime and text) and the mtime of
    `Player-prev.log`; filesystem access is replaced by these inputs. The text
    is indexed by character, standing for the byte offsets `seek`/`tell` use. */
module LogReaders {
  import opened Wrappers
  import opened Text
  import opened Files

  datatype ServerState = Connected | NotConnected

  /** The server address of the current connection; also the key of a
      latency session. */
  datatype ConnectionDetails = ConnectionDetails(ip: string, port: string)

  /** The two log lines the reader looks for, each a bracketed tag and a
      message. Each is written as tag + message so that the verifier can see
      its leading `[`; the value is the one string the program matches. */
  const DisconnectMarker: string := "[FG_UnityInternetNetworkManager]" + " FG_NetworkManager shutdown completed!"
  const ConnectMarker: string := "[StateConnectToGame]" + " We're connected to the server!"

  /** The "no connection" address and port. */
  const NoIp: string := "0.0.0.0"
  const NoPort: string := "0"
  const NoConnection: ConnectionDetails := ConnectionDetails(NoIp, NoPort)

  /** The fields of a `LogReader`. */
  datatype LogReader = LogReader(
    position: nat,
    currentIp: string,
    currentPort: string,
    serverState: ServerState,
    prevLogMtime: Option<int>,
    logMtime: Option<int>)

  /** The result of `get_connection_details`: the state and connection it
      returns, or the exception it raises; either way the reader it leaves. */
  datatype PollOutcome =
    | Polled(reader: LogReader, state: ServerState, details: ConnectionDetails)
    | Raised(reader: LogReader, error: PyError)

  /** How a poll decides that `Player-prev.log` signals a rotation: as the code
      is written (reset when its mtime is unchanged), or as the name `changed`
      and the rotation check imply (reset when its mtime changed). */
  datatype RotationRule = ResetWhenUnchanged | ResetWhenChanged

  /** The reader as constructed. */
  function Init(): (r: LogReader)
    ensures r.position == 0 && r.serverState == NotConnected
    ensures ConnectionDetails(r.currentIp, r.currentPort) == NoConnection
    ensures r.logMtime.None? && r.prevLogMtime.None?
  {
    LogReader(0, NoIp, NoPort, NotConnected, None, None)
  }

  /** `log_updated`: whether the log's mtime differs from the stored one
      (False when the log is absent); stores the observed mtime. */
  function LogUpdated(r: LogReader, log: FileView): (res: (bool, LogReader))
    ensures log.Missing? ==> res == (false, r)
    ensures log.Found? ==> res.1 == r.(logMtime := Some(log.mtime))
    ensures res.0 <==> log.Found? && r.logMtime != Some(log.mtime)
    ensures log.Found? && r.logMtime.None? ==> res.0
  {
    match log
    case Missing => (false, r)
    case Found(m, _) => (r.logMtime != Some(m), r.(logMtime := Some(m)))
  }

  /** `log_changed` as written: True when `Player-prev.log` exists and its
      mtime EQUALS the stored one, which never holds on the first call; the
      observed mtime is always stored. */
  function LogChanged(r: LogReader, prevLog: Option<int>): (res: (bool, LogReader))
    ensures prevLog.None? ==> res == (false, r)
    ensures prevLog.Some? ==> res.1 == r.(prevLogMtime := prevLog)
    ensures res.0 <==> prevLog.Some? && r.prevLogMtime == prevLog
    ensures r.prevLogMtime.None? ==> !res.0
  {
    match prevLog
    case None => (false, r)
    case Some(m) => (r.prevLogMtime == Some(m), r.(prevLogMtime := Some(m)))
  }

  /** `log_changed` with the comparison its name and the rotation check
      imply: True when `Player-prev.log` exists and its mtime differs from the
      stored one. */
  function LogChangedCorrected(r: LogReader, prevLog: Option<int>): (res: (bool, LogReader))
    ensures prevLog.None? ==> res == (false, r)
    ensures prevLog.Some? ==> res.1 == r.(prevLogMtime := prevLog)
    ensures res.0 <==> prevLog.Some? && r.prevLogMtime != prevLog
  {
    match prevLog
    case None => (false, r)
    case Some(m) => (r.prevLogMtime != Some(m), r.(prevLogMtime := Some(m)))
  }

  /** Whether a poll with this rule resets the position. */
  function RotationDetected(rule: RotationRule, r: LogReader, prevLog: Option<int>): (res: (bool, LogReader))
  {
    match rule
    case ResetWhenUnchanged => LogChanged(r, prevLog)
    case ResetWhenChanged => LogChangedCorrected(r, prevLog)
  }

  // ---------------------------------------------------------------------------
  // Scanning new lines

  predicate IsMarkerLine(line: string) {
    Contains(line, DisconnectMarker) || Contains(line, ConnectMarker)
  }

  /** A connect line has a last whitespace token. */
  lemma ConnectLineHasToken(line: string)
    requires Contains(line, ConnectMarker)
    ensures |Split(line)| > 0
  {
    assert ConnectMarker[0] == '[';
    ContainsWordHasToken(line, ConnectMarker);
  }

  /** `ip_address, port = line.split()[-1].split(':')` on a connect line:
      the two colon-separated halves of the last token, or `ValueError`
      when that token does not hold exactly one colon. */
  function ConnectTarget(line: string): (res: Result<ConnectionDetails, PyError>)
    requires Contains(line, ConnectMarker)
    ensures |Split(line)| > 0
    ensures res.Success? ==> LastToken(line) == res.value.ip + ":" + res.value.port
    ensures res.Success? ==> ':' !in res.value.ip && ':' !in res.value.port
    ensures res.Failure? ==> res.error == ValueError
  {
    ConnectLineHasToken(line);
    var parts := SplitOn(LastToken(line), ':');
    SplitOnTwo(LastToken(line), ':');
    if |parts| == 2 then Success(ConnectionDetails(parts[0], parts[1]))
    else Failure(ValueError)
  }

  /** A connect line fails exactly when its last token does not hold exactly one colon. */
  lemma ConnectTargetFailsIff(line: string)
    requires Contains(line, ConnectMarker)
    ensures |Split(line)| > 0
    ensures ConnectTarget(line).Failure? <==>
      !(exists a: string, b: string :: ':' !in a && ':' !in b && LastToken(line) == a + ":" + b)
  {
    ConnectLineHasToken(line);
    var tok := LastToken(line);
    if exists a: string, b: string :: ':' !in a && ':' !in b && tok == a + ":" + b {
      var a: string, b: string :| ':' !in a && ':' !in b && tok == a + ":" + b;
      SplitOnPair(a, b, ':');
    }
  }

  /** The body of the `for line in f` loop: a disconnect line resets to no
      connection, a connect line (checked only when the disconnect test fails)
      takes the address of its last token, any other line changes nothing. */
  function ScanStep(line: string, current: ConnectionDetails): (res: Result<ConnectionDetails, PyError>)
    ensures Contains(line, DisconnectMarker) ==> res == Success(NoConnection)
    ensures !IsMarkerLine(line) ==> res == Success(current)
    ensures !Contains(line, DisconnectMarker) && Contains(line, ConnectMarker) ==> res == ConnectTarget(line)
    ensures res.Failure? ==> !Contains(line, DisconnectMarker) && Contains(line, ConnectMarker)
  {
    if Contains(line, DisconnectMarker) then Success(NoConnection)
    else if Contains(line, ConnectMarker) then ConnectTarget(line)
    else Success(current)
  }

  /** The whole `for line in f` loop: the steps applied in order, stopping at
      the first exception. */
  function Scan(lines: seq<string>, current: ConnectionDetails): Result<ConnectionDetails, PyError>
  {
    if |lines| == 0 then Success(current)
    else
      match ScanStep(lines[0], current)
      case Failure(e) => Failure(e)
      case Success(next) => Scan(lines[1..], next)
  }

  /** Scanning `a + b` scans `a`, then `b` from where `a` left off. */
  lemma {:induction false} ScanAppend(a: seq<string>, b: seq<string>, current: ConnectionDetails)
    ensures Scan(a + b, current) ==
      match Scan(a, current)
      case Failure(e) => Failure(e)
      case Success(c) => Scan(b, c)
  {
    if |a| == 0 {
      assert a + b == b;
    } else {
      assert (a + b)[0] == a[0];
      assert (a + b)[1..] == a[1..] + b;
      match ScanStep(a[0], current)
      case Failure(e) =>
      case Success(next) => ScanAppend(a[1..], b, next);
    }
  }

  /** The index of the last line holding either marker. */
  function LastMarker(lines: seq<string>): Option<nat> {
    LastWithEither(lines, DisconnectMarker, ConnectMarker)
  }

  /** The last marker wins: a scan that completes ends with what the last
      marker line says, or with the starting connection when no line holds a
      marker. */
  lemma {:induction false} LastMarkerWins(lines: seq<string>, current: ConnectionDetails)
    ensures Scan(lines, current).Success? ==>
      match LastMarker(lines)
      case None => Scan(lines, current) == Success(current)
      case Some(k) =>
        if Contains(lines[k], DisconnectMarker) then Scan(lines, current) == Success(NoConnection)
        else Scan(lines, current) == ConnectTarget(lines[k])
    decreases |lines|
  {
    if |lines| > 0 {
      var init := lines[..|lines| - 1];
      var last := lines[|lines| - 1];
      assert init + [last] == lines;
      ScanAppend(init, [last], current);
      LastMarkerWins(init, current);
      match Scan(init, current)
      case Failure(e) =>
      case Success(c) =>
        assert Scan([last], c) == ScanStep(last, c) by {
          match ScanStep(last, c)
          case Failure(e) =>
          case Success(n) => assert [last][1..] == [];
        }
    }
  }

  /** A connect-only line whose last token does not unpack. */
  predicate BadConnectLine(line: string) {
    !Contains(line, DisconnectMarker) && Contains(line, ConnectMarker) && ConnectTarget(line).Failure?
  }

  /** A scan that raises met a connect-only line that does not unpack. */
  lemma {:induction false} ScanFailureHasBadLine(lines: seq<string>, current: ConnectionDetails)
    requires Scan(lines, current).Failure?
    ensures exists i :: 0 <= i < |lines| && BadConnectLine(lines[i])
  {
    match ScanStep(lines[0], current)
    case Failure(e) =>
      assert BadConnectLine(lines[0]);
    case Success(next) =>
      ScanFailureHasBadLine(lines[1..], next);
      var i :| 0 <= i < |lines| - 1 && BadConnectLine(lines[1..][i]);
      assert lines[i + 1] == lines[1..][i];
  }

  lemma BadLineStepFails(line: string, current: ConnectionDetails)
    requires BadConnectLine(line)
    ensures ScanStep(line, current).Failure?
  {
  }

  /** A connect-only line that does not unpack makes the scan raise, unless
      an earlier line already did. */
  lemma BadLineFailsScan(lines: seq<string>, current: ConnectionDetails, i: nat)
    requires i < |lines| && BadConnectLine(lines[i])
    ensures Scan(lines, current).Failure?
  {
    var pre, post := lines[..i], lines[i..];
    assert lines == pre + post;
    ScanAppend(pre, post, current);
    match Scan(pre, current)
    case Failure(e) =>
    case Success(c) =>
      assert post[0] == lines[i];
      BadLineStepFails(post[0], c);
  }

  /** A scan raises exactly when some connect-only line has a last token that
      does not split into an address and a port. */
  lemma ScanFailsIff(lines: seq<string>, current: ConnectionDetails)
    ensures Scan(lines, current).Failure? <==>
      (exists i :: 0 <= i < |lines| && !Contains(lines[i], DisconnectMarker)
         && Contains(lines[i], ConnectMarker) && ConnectTarget(lines[i]).Failure?)
  {
    if Scan(lines, current).Failure? {
      ScanFailureHasBadLine(lines, current);
    }
    if exists i :: 0 <= i < |lines| && BadConnectLine(lines[i]) {
      var i :| 0 <= i < |lines| && BadConnectLine(lines[i]);
      BadLineFailsScan(lines, current, i);
    }
  }

  // ---------------------------------------------------------------------------
  // Polling

  /** `_update_ip_from_log_file`: scan the lines after the position, then store
      the end position (`f.tell()`, which stays at the seek position when that
      lies beyond the end) and the resulting address; an exception stores
      nothing. */
  function UpdateIpFromLog(r: LogReader, log: FileView): (res: Result<LogReader, PyError>)
    ensures log.Missing? ==> res == Success(r)
    ensures res.Failure? ==> log.Found?
    ensures log.Found? && res.Success? ==>
      && res.value.position == (if r.position <= |log.text| then |log.text| else r.position)
      && res.value.position >= r.position
      && res.value == r.(position := res.value.position, currentIp := res.value.currentIp,
                         currentPort := res.value.currentPort)
  {
    match log
    case Missing => Success(r)
    case Found(_, text) =>
      match Scan(Lines(Pending(text, r.position)), ConnectionDetails(r.currentIp, r.currentPort))
      case Failure(e) => Failure(e)
      case Success(c) =>
        Success(r.(position := EndPosition(text, r.position), currentIp := c.ip, currentPort := c.port))
  }

  /** The state and details `get_connection_details` returns for the stored address. */
  function Report(r: LogReader): (out: PollOutcome)
    ensures out.Polled? && out.reader == r.(serverState := out.state)
    ensures out.state == Connected <==> r.currentIp != NoIp
    ensures out.details == ConnectionDetails(r.currentIp, r.currentPort)
  {
    var state := if r.currentIp == NoIp then NotConnected else Connected;
    Polled(r.(serverState := state), state, ConnectionDetails(r.currentIp, r.currentPort))
  }

  /** One call of `get_connection_details` under the given rotation rule. */
  function PollWith(rule: RotationRule, r: LogReader, log: FileView, prevLog: Option<int>): PollOutcome
  {
    var (updated, r1) := LogUpdated(r, log);
    if !updated then Report(r1)
    else
      var (reset, r2) := RotationDetected(rule, r1, prevLog);
      var r3 := if reset then r2.(position := 0) else r2;
      match UpdateIpFromLog(r3, log)
      case Failure(e) => Raised(r3, e)
      case Success(r4) => Report(r4)
  }

  /** One call of `get_connection_details`, as the code is written. */
  function Poll(r: LogReader, log: FileView, prevLog: Option<int>): (out: PollOutcome)
    // Every outcome reports or keeps a consistent reader.
    ensures out.Polled? ==> out.reader.serverState == out.state
    ensures out.Polled? ==> (out.state == Connected <==> out.reader.currentIp != NoIp)
    ensures out.Polled? ==> out.details == ConnectionDetails(out.reader.currentIp, out.reader.currentPort)
    // An absent log is never read and its stored mtimes are kept.
    ensures log.Missing? ==> out.Polled? && out.reader == r.(serverState := out.state)
    // An unchanged log mtime reads nothing.
    ensures log.Found? && r.logMtime == Some(log.mtime) ==>
      out.Polled? && out.reader == r.(serverState := out.state)
    // A present log's mtime is always stored.
    ensures log.Found? ==> out.reader.logMtime == Some(log.mtime)
    // Only a read can raise, and it leaves the address as it was.
    ensures out.Raised? ==> log.Found? && r.logMtime != Some(log.mtime)
    ensures out.Raised? ==> out.reader.currentIp == r.currentIp && out.reader.currentPort == r.currentPort
    ensures out.Raised? ==> out.reader.position == r.position || out.reader.position == 0
  {
    PollWith(ResetWhenUnchanged, r, log, prevLog)
  }

  /** Where a read starts: 0 when the position was reset, else the stored position. */
  function ReadStart(rule: RotationRule, r: LogReader, prevLog: Option<int>): nat
  {
    if RotationDetected(rule, r, prevLog).0 then 0 else r.position
  }

  /** With the code as written, a read starts at 0 exactly when the position
      already was 0 or `Player-prev.log` exists with the stored mtime. */
  lemma ReadStartAsWritten(r: LogReader, prevLog: Option<int>)
    ensures ReadStart(ResetWhenUnchanged, r, prevLog) == 0 <==>
      r.position == 0 || (prevLog.Some? && r.prevLogMtime == prevLog)
  {
  }

  /** Under either rule, a poll of a log whose mtime changed scans exactly the
      lines after the read's start, and the position ends at the end of the text. */
  lemma PollWithReads(rule: RotationRule, r: LogReader, mtime: int, text: string, prevLog: Option<int>)
    requires r.logMtime != Some(mtime)
    ensures var start := ReadStart(rule, r, prevLog);
      var scanned := Scan(Lines(Pending(text, start)), ConnectionDetails(r.currentIp, r.currentPort));
      var out := PollWith(rule, r, Found(mtime, text), prevLog);
      && (out.Polled? <==> scanned.Success?)
      && (out.Polled? ==>
            && out.details == scanned.value
            && out.reader.position == (if start <= |text| then |text| else start)
            && (prevLog.Some? ==> out.reader.prevLogMtime == prevLog))
  {
    var (updated, r1) := LogUpdated(r, Found(mtime, text));
    var (reset, r2) := RotationDetected(rule, r1, prevLog);
    assert reset == RotationDetected(rule, r, prevLog).0;
    var r3 := if reset then r2.(position := 0) else r2;
    assert r3.position == ReadStart(rule, r, prevLog);
    assert ConnectionDetails(r3.currentIp, r3.currentPort) == ConnectionDetails(r.currentIp, r.currentPort);
  }

  /** A poll that reads scans exactly the lines after its start; the position
      ends at the end of the text, and with the code as written the start is 0
      exactly when `Player-prev.log` exists with the stored mtime. */
  lemma PollReads(r: LogReader, mtime: int, text: string, prevLog: Option<int>)
    requires r.logMtime != Some(mtime)
    ensures var start := ReadStart(ResetWhenUnchanged, r, prevLog);
      && (start == 0 <==> r.position == 0 || (prevLog.Some? && r.prevLogMtime == prevLog))
      && var scanned := Scan(Lines(Pending(text, start)), ConnectionDetails(r.currentIp, r.currentPort));
         var out := Poll(r, Found(mtime, text), prevLog);
         && (out.Polled? <==> scanned.Success?)
         && (out.Polled? ==>
               && out.details == scanned.value
               && out.reader.position == (if start <= |text| then |text| else start)
               && (prevLog.Some? ==> out.reader.prevLogMtime == prevLog))
  {
    ReadStartAsWritten(r, prevLog);
    PollWithReads(ResetWhenUnchanged, r, mtime, text, prevLog);
  }

  /** Bytes before the stored position are never consulted unless the position
      is reset: two texts that agree after it give the same poll. */
  lemma PollIgnoresReadText(r: LogReader, mtime: int, t1: string, t2: string, prevLog: Option<int>)
    requires !LogChanged(r, prevLog).0
    requires r.position <= |t1| && r.position <= |t2|
    requires t1[r.position..] == t2[r.position..] && |t1| == |t2|
    ensures Poll(r, Found(mtime, t1), prevLog) == Poll(r, Found(mtime, t2), prevLog)
  {
    assert Pending(t1, r.position) == Pending(t2, r.position);
  }

  /** Polling again without the log changing reads nothing and reports the
      same answer. */
  lemma PollIdempotent(r: LogReader, log: FileView, prevLog: Option<int>, prevLog': Option<int>)
    requires Poll(r, log, prevLog).Polled?
    ensures var first := Poll(r, log, prevLog);
      Poll(first.reader, log, prevLog') == first
  {
  }

  /** The result of a poll that reads is decided by the last marker line among
      the new lines: a disconnect line gives no connection, a connect line the
      halves of its last token, and with no marker line the address stays. */
  lemma PollLastMarkerWins(r: LogReader, mtime: int, text: string, prevLog: Option<int>)
    requires r.logMtime != Some(mtime)
    requires Poll(r, Found(mtime, text), prevLog).Polled?
    ensures var lines := Lines(Pending(text, ReadStart(ResetWhenUnchanged, r, prevLog)));
      var out := Poll(r, Found(mtime, text), prevLog);
      match LastMarker(lines)
      case None => out.details == ConnectionDetails(r.currentIp, r.currentPort)
      case Some(k) =>
        && (Contains(lines[k], DisconnectMarker) ==> out.details == NoConnection && out.state == NotConnected)
        && (!Contains(lines[k], DisconnectMarker) ==> ConnectTarget(lines[k]) == Success(out.details))
  {
    var start := ReadStart(ResetWhenUnchanged, r, prevLog);
    var lines := Lines(Pending(text, start));
    PollReads(r, mtime, text, prevLog);
    LastMarkerWins(lines, ConnectionDetails(r.currentIp, r.currentPort));
  }

  // ---------------------------------------------------------------------------
  // Rotation: the code as written against its evident intent

  /** As written, a rotated log (the `Player-prev.log` mtime moved on) keeps the
      old position: a new log shorter than that position is not read at all,
      so its connect line is missed and the poll still reports no connection. */
  lemma RotationMissedAsWritten()
    ensures var line := "x " + ConnectMarker + " 10.0.0.1:7777\n";
      var r := Init().(position := |line| + 100, logMtime := Some(1), prevLogMtime := Some(1));
      var out := Poll(r, Found(2, line), Some(2));
      && Contains(line, ConnectMarker)
      && out == Polled(r.(logMtime := Some(2), prevLogMtime := Some(2)), NotConnected, NoConnection)
  {
    var line := "x " + ConnectMarker + " 10.0.0.1:7777\n";
    assert ConnectMarker <= line[2..];
  }

  /** With the corrected comparison, a rotation is always read from the start:
      the stored position plays no part and the poll reads the new log as a
      reader at position 0 would. */
  lemma RotationReadFromStart(r: LogReader, mtime: int, text: string, prevMtime: int)
    requires r.logMtime != Some(mtime)
    requires r.prevLogMtime != Some(prevMtime)
    ensures PollWith(ResetWhenChanged, r, Found(mtime, text), Some(prevMtime))
         == PollWith(ResetWhenChanged, r.(position := 0), Found(mtime, text), Some(prevMtime))
  {
  }

  /** A reader at position 0 scans every line of the text and ends at its end. */
  lemma ReadFromStart(r: LogReader, mtime: int, text: string)
    requires r.position == 0
    ensures var scanned := Scan(Lines(text), ConnectionDetails(r.currentIp, r.currentPort));
      var res := UpdateIpFromLog(r, Found(mtime, text));
      && (res.Success? <==> scanned.Success?)
      && (res.Success? ==> res.value.currentIp == scanned.value.ip
                           && res.value.currentPort == scanned.value.port && res.value.position == |text|)
  {
    assert Pending(text, 0) == text;
  }

  /** With the corrected comparison, an unrotated log is read on from the
      stored position, never from the start again. */
  lemma NoRotationReadOn(r: LogReader, mtime: int, text: string, prevLog: Option<int>)
    requires r.logMtime != Some(mtime)
    requires prevLog.None? || r.prevLogMtime == prevLog
    requires r.position <= |text|
    ensures var scanned := Scan(Lines(text[r.position..]), ConnectionDetails(r.currentIp, r.currentPort));
      var out := PollWith(ResetWhenChanged, r, Found(mtime, text), prevLog);
      && (out.Polled? <==> scanned.Success?)
      && (out.Polled? ==> out.details == scanned.value && out.reader.position == |text|)
  {
  }
}

=== FILE: pinger.dfy ===
/** The latency probe (`fgpe/pinger.py`): the server address is split into
    host and port, and the output of one Windows `ping` run is read for the
    round-trip time. The run itself is left to the caller, who supplies its
    exit code and standard output. */
module Pinger {
  import opened Wrappers
  import opened Text

  datatype PingConnect = Connected | NotConnected

  /** The fields of a `Pinger`. */
  datatype Pinger = Pinger(ipAddress: string, port: Option<string>)

  /** `Pinger(address)`: an address with a colon is unpacked into host and
      port, which raises `ValueError` unless there is exactly one colon; an
      address without one is the host alone. */
  function Create(address: string): (res: Result<Pinger, PyError>)
    ensures ':' !in address ==> res == Success(Pinger(address, None))
    ensures ':' in address ==> (res.Success? <==> ':' !in address[IndexOf(address, ':') + 1..])
    ensures res.Success? && res.value.port.Some? ==>
      && address == res.value.ipAddress + ":" + res.value.port.value
      && ':' !in res.value.ipAddress && ':' !in res.value.port.value
    ensures res.Failure? ==> res.error == ValueError
  {
    if ':' in address then
      var parts := SplitOn(address, ':');
      SplitOnTwo(address, ':');
      if |parts| == 2 then Success(Pinger(parts[0], Some(parts[1])))
      else Failure(ValueError)
    else Success(Pinger(address, None))
  }

  /** `host:port` with neither part holding a colon gives back the two parts. */
  lemma CreateHostPort(host: string, port: string)
    requires ':' !in host && ':' !in port
    ensures Create(host + ":" + port) == Success(Pinger(host, Some(port)))
  {
    SplitJoinOn([host, port], ':');
    assert JoinOn([host, port], ':') == host + ":" + port;
  }

  /** The time of a `Reply from` line: the fifth token, the text after its
      first `=`, less its last two characters, as a decimal integer. Too few
      tokens or no `=` raise `IndexError`; text that is not an integer raises
      `ValueError`. */
  function ReplyTime(line: string): (res: Result<int, PyError>)
    ensures |Split(Strip(line))| < 5 ==> res == Failure(IndexError)
    ensures |Split(Strip(line))| >= 5 && '=' !in Split(Strip(line))[4] ==> res == Failure(IndexError)
    ensures res.Failure? ==> res.error == IndexError || res.error == ValueError
  {
    var tokens := Split(Strip(line));
    if |tokens| < 5 then Failure(IndexError)
    else
      var parts := SplitOn(tokens[4], '=');
      if |parts| < 2 then Failure(IndexError)
      else
        var timeMs := parts[1];
        var digits := if |timeMs| >= 2 then timeMs[..|timeMs| - 2] else "";
        match ParseInt(digits)
        case None => Failure(ValueError)
        case Some(t) => Success(t)
  }

  /** `get_ping_time` on the run's exit code and output: a failed run, or
      output without a `Reply from` line, is no connection; otherwise only
      the first such line is read. */
  function GetPingTime(returncode: int, stdout: string): (res: Result<(PingConnect, Option<int>), PyError>)
    ensures returncode != 0 ==> res == Success((NotConnected, None))
    ensures returncode == 0 && FirstWith(SplitLines(stdout), "Reply from").None? ==>
      res == Success((NotConnected, None))
    ensures returncode == 0 && FirstWith(SplitLines(stdout), "Reply from").Some? ==>
      var line := SplitLines(stdout)[FirstWith(SplitLines(stdout), "Reply from").value];
      && (res.Success? <==> ReplyTime(line).Success?)
      && (res.Success? ==> res.value == (Connected, Some(ReplyTime(line).value)))
      && (res.Failure? ==> res.error == ReplyTime(line).error)
    ensures res.Success? ==> (res.value.0 == Connected <==> res.value.1.Some?)
  {
    if returncode != 0 then Success((NotConnected, None))
    else
      var lines := SplitLines(stdout);
      match FirstWith(lines, "Reply from")
      case None => Success((NotConnected, None))
      case Some(k) =>
        match ReplyTime(lines[k])
        case Failure(e) => Failure(e)
        case Success(t) => Success((Connected, Some(t)))
  }

  lemma ShowIntNoEquals(i: int)
    ensures forall k :: 0 <= k < |ShowInt(i)| ==> ShowInt(i)[k] != '=' && !IsSpace(ShowInt(i)[k])
  {
    var s := ShowInt(i);
    forall k | 0 <= k < |s| ensures s[k] != '=' && !IsSpace(s[k]) {
      if i < 0 {
        assert s == "-" + ShowNat(-i);
        if k > 0 {
          assert s[k] == ShowNat(-i)[k - 1];
        }
      }
    }
  }

  /** The token `time=<t>ms` as the probe prints it. */
  function TimeToken(t: int): string {
    "time=" + ShowInt(t) + "ms"
  }

  lemma TimeTokenIsWord(t: int)
    ensures IsWord(TimeToken(t))
    ensures SplitOn(TimeToken(t), '=') == ["time", ShowInt(t) + "ms"]
  {
    var n := ShowInt(t);
    ShowIntNoEquals(t);
    var tok := TimeToken(t);
    forall k | 0 <= k < |tok| ensures !IsSpace(tok[k]) {
      if 5 <= k < 5 + |n| {
        assert tok[k] == n[k - 5];
      }
    }
    assert '=' !in n + "ms" by {
      forall k | 0 <= k < |n| + 2 ensures (n + "ms")[k] != '=' {
        if k < |n| {
          assert (n + "ms")[k] == n[k];
        }
      }
    }
    SplitJoinOn(["time", n + "ms"], '=');
    assert JoinOn(["time", n + "ms"], '=') == tok;
  }

  /** A reply line whose fifth word is `time=<t>ms` reads as `t`, whatever
      the other words are. */
  lemma ReplyTimeReads(ws: seq<string>, t: int)
    requires |ws| >= 5 && forall i :: 0 <= i < |ws| ==> IsWord(ws[i])
    requires ws[4] == TimeToken(t)
    ensures ReplyTime(JoinWords(ws)) == Success(t)
  {
    var line := JoinWords(ws);
    StripJoinWords(ws);
    SplitJoinWords(ws);
    TimeTokenIsWord(t);
    var timeMs := ShowInt(t) + "ms";
    assert timeMs[..|timeMs| - 2] == ShowInt(t);
    ParseShowInt(t);
  }

  /** Windows prints `time<1ms` for a reply under a millisecond: the token
      has no `=`, so the code raises `IndexError` rather than reporting a time. */
  lemma SubMillisecondRaises(ws: seq<string>)
    requires |ws| >= 5 && forall i :: 0 <= i < |ws| ==> IsWord(ws[i])
    requires ws[4] == "time<1ms"
    ensures ReplyTime(JoinWords(ws)) == Failure(IndexError)
  {
    var tok := "time<1ms";
    assert tok == ['t', 'i', 'm', 'e', '<', '1', 'm', 's'];
    assert '=' !in tok;
    StripJoinWords(ws);
    SplitJoinWords(ws);
    assert Split(Strip(JoinWords(ws)))[4] == tok;
  }

  /** Words joined by spaces hold no line boundary. */
  lemma {:induction false} JoinWordsOneLine(ws: seq<string>)
    requires forall i :: 0 <= i < |ws| ==> IsWord(ws[i])
    ensures forall j :: 0 <= j < |JoinWords(ws)| ==> !IsLineBoundary(JoinWords(ws)[j])
  {
    if |ws| > 1 {
      JoinWordsOneLine(ws[1..]);
      var tail := JoinWords(ws[1..]);
      var s := JoinWords(ws);
      assert s == ws[0] + " " + tail;
      forall j | 0 <= j < |s| ensures !IsLineBoundary(s[j]) {
        if j < |ws[0]| {
          assert s[j] == ws[0][j];
        } else if j > |ws[0]| {
          assert s[j] == tail[j - |ws[0]| - 1];
        }
      }
    }
  }

  /** The first line holding `marker` in `pre + [line] + post`, when no line
      of `pre` holds it and `line` does, is `line`. */
  lemma FirstWithAfter(pre: seq<string>, line: string, post: seq<string>, marker: string)
    requires forall i :: 0 <= i < |pre| ==> !Contains(pre[i], marker)
    requires Contains(line, marker)
    ensures FirstWith(pre + [line] + post, marker) == Some(|pre|)
  {
    var lines := pre + [line] + post;
    assert forall j :: 0 <= j < |pre| ==> lines[j] == pre[j];
    assert lines[|pre|] == line;
  }

  /** Lines without boundaries, one of them the words `ws`, are read back
      from their text. */
  lemma LinesRoundTrip(pre: seq<string>, ws: seq<string>, post: seq<string>)
    requires forall i, j :: 0 <= i < |pre| && 0 <= j < |pre[i]| ==> !IsLineBoundary(pre[i][j])
    requires forall i, j :: 0 <= i < |post| && 0 <= j < |post[i]| ==> !IsLineBoundary(post[i][j])
    requires forall i :: 0 <= i < |ws| ==> IsWord(ws[i])
    ensures SplitLines(Unlines(pre + [JoinWords(ws)] + post)) == pre + [JoinWords(ws)] + post
  {
    var lines := pre + [JoinWords(ws)] + post;
    JoinWordsOneLine(ws);
    assert forall i :: 0 <= i < |pre| ==> lines[i] == pre[i];
    assert forall i :: 0 <= i < |post| ==> lines[|pre| + 1 + i] == post[i];
    assert lines[|pre|] == JoinWords(ws);
    SplitLinesUnlines(lines);
  }

  /** A successful run whose output has, after lines without `Reply from`, a
      reply line with `time=<t>ms` as its fifth word reports a connection with
      time `t`, whatever follows. */
  lemma PingReportsFirstReply(pre: seq<string>, ws: seq<string>, post: seq<string>, t: int)
    requires forall i, j :: 0 <= i < |pre| && 0 <= j < |pre[i]| ==> !IsLineBoundary(pre[i][j])
    requires forall i, j :: 0 <= i < |post| && 0 <= j < |post[i]| ==> !IsLineBoundary(post[i][j])
    requires forall i :: 0 <= i < |pre| ==> !Contains(pre[i], "Reply from")
    requires |ws| >= 5 && forall i :: 0 <= i < |ws| ==> IsWord(ws[i])
    requires Contains(JoinWords(ws), "Reply from") && ws[4] == TimeToken(t)
    ensures GetPingTime(0, Unlines(pre + [JoinWords(ws)] + post)) == Success((Connected, Some(t)))
  {
    LinesRoundTrip(pre, ws, post);
    FirstWithAfter(pre, JoinWords(ws), post, "Reply from");
    ReplyTimeReads(ws, t);
  }
}

=== FILE: session_stats.dfy ===
/** The per-server latency statistics (`fgpe/stats.py`): samples are added
    per connection, a live summary is derived for display, and ending a
    session produces one row of the statistics file and forgets the
    connection. `recent_pings` and `ping_count` are `defaultdict`s, so merely
    reading a missing connection inserts an empty entry; the model makes
    that insertion explicit. Clock readings are parameters. */
module SessionStats {
  import opened Wrappers
  import opened Statistics
  import LogReaders

  type Connection = LogReaders.ConnectionDetails

  /** The fields of a `Stats` object (the path of the statistics file aside). */
  datatype Stats = Stats(
    avgSize: int,
    recentPings: map<Connection, seq<int>>,
    pingCount: map<Connection, int>,
    pingStartTime: map<Connection, int>,
    currentConnection: Option<Connection>)

  /** The values `stats_string` formats. */
  datatype LiveSummary = LiveSummary(
    currentPing: int, minPing: int, maxPing: int, windowSize: int, rollingAverage: real)

  /** One row of the statistics file, in column order. An empty percentile
      field is `None`. */
  datatype SessionRow = SessionRow(
    startTime: int, endTime: int, ip: string, port: string, count: int,
    minPing: int, maxPing: int, median: real, mean: real,
    percentile75: Option<real>, percentile90: Option<real>)

  /** The result of `end_session`: the row it wrote, if any, or the
      exception it raised; either way the statistics it leaves. */
  datatype EndOutcome =
    | Ended(stats: Stats, row: Option<SessionRow>)
    | Raised(stats: Stats, error: PyError)

  /** `recent_pings[cd]` read through the `defaultdict`. */
  function Samples(s: Stats, cd: Connection): seq<int> {
    if cd in s.recentPings then s.recentPings[cd] else []
  }

  /** `ping_count[cd]` read through the `defaultdict`. */
  function Count(s: Stats, cd: Connection): int {
    if cd in s.pingCount then s.pingCount[cd] else 0
  }

  /** The entry a `defaultdict(list)` read leaves behind. */
  function Touch(s: Stats, cd: Connection): (t: Stats)
    ensures cd in t.recentPings && Samples(t, cd) == Samples(s, cd)
    ensures forall c :: Samples(t, c) == Samples(s, c)
    ensures t.recentPings - {cd} == s.recentPings - {cd}
    ensures t.pingCount == s.pingCount && t.pingStartTime == s.pingStartTime
    ensures t.avgSize == s.avgSize && t.currentConnection == s.currentConnection
  {
    s.(recentPings := s.recentPings[cd := Samples(s, cd)])
  }

  /** What the three dictionaries keep consistent between calls: a
      connection has a sample count exactly when it has a start time, the
      count is the number of samples and is positive, and any other
      connection left in `recent_pings` holds no samples. */
  predicate Valid(s: Stats) {
    && s.pingCount.Keys == s.pingStartTime.Keys
    && (forall cd :: cd in s.pingCount ==> s.pingCount[cd] == |Samples(s, cd)| > 0)
    && (forall cd :: cd in s.recentPings && cd !in s.pingCount ==> s.recentPings[cd] == [])
  }

  /** `Stats(avg_size)`: nothing recorded. */
  function Init(avgSize: int): (s: Stats)
    ensures Valid(s) && s.avgSize == avgSize && s.currentConnection.None?
    ensures forall cd :: Samples(s, cd) == [] && Count(s, cd) == 0 && cd !in s.pingStartTime
  {
    Stats(avgSize, map[], map[], map[], None)
  }

  /** `add`: one more sample for `cd`, which becomes the current connection;
      the start time is taken (from `now`) on the first sample only, and no
      other connection changes. */
  function Add(s: Stats, cd: Connection, time: int, now: int): (r: Stats)
    ensures Samples(r, cd) == Samples(s, cd) + [time]
    ensures Count(r, cd) == Count(s, cd) + 1
    ensures cd in r.pingStartTime
    ensures r.pingStartTime[cd] == if cd in s.pingStartTime then s.pingStartTime[cd] else now
    ensures r.currentConnection == Some(cd) && r.avgSize == s.avgSize
  {
    var startTime := if cd in s.pingStartTime then s.pingStartTime[cd] else now;
    Stats(s.avgSize,
          s.recentPings[cd := Samples(s, cd) + [time]],
          s.pingCount[cd := Count(s, cd) + 1],
          s.pingStartTime[cd := startTime],
          Some(cd))
  }

  /** `add` touches no other connection. */
  lemma AddFrame(s: Stats, cd: Connection, time: int, now: int)
    ensures var r := Add(s, cd, time, now);
      && r.recentPings - {cd} == s.recentPings - {cd}
      && r.pingCount - {cd} == s.pingCount - {cd}
      && r.pingStartTime - {cd} == s.pingStartTime - {cd}
  {
  }

  /** `add` keeps the dictionaries consistent. */
  lemma AddValid(s: Stats, cd: Connection, time: int, now: int)
    requires Valid(s)
    ensures Valid(Add(s, cd, time, now))
  {
  }

  /** The samples the rolling average is taken over, `xs[-avg_size:]`:
      Python's slice from a negative start counts from the end, a positive
      start counts from the front, and either is clamped into the list. So
      the window is the last `avg_size` samples for a positive size, all of
      them for a size of 0, and all but the first `-avg_size` for a negative
      one. */
  function Window(xs: seq<int>, avgSize: int): (w: seq<int>)
    ensures |w| <= |xs| && w == xs[|xs| - |w|..]
    ensures avgSize >= 0 ==> |w| == if avgSize <= |xs| && avgSize != 0 then avgSize else |xs|
    ensures avgSize < 0 ==> |w| == if -avgSize <= |xs| then |xs| + avgSize else 0
  {
    var start := -avgSize;
    if start < 0 then (if -start <= |xs| then xs[|xs| + start..] else xs)
    else if start <= |xs| then xs[start..] else []
  }

  /** `stats_string`: the latest sample, the extremes, and the rolling average
      over the window, with the window size it displays (which is
      `min(len, avg_size)` even when that is not the number averaged).
      Indexing the latest sample of an empty list raises `IndexError`, and
      the mean of an empty window (possible only for a negative `avg_size`)
      raises `StatisticsError`. The returned statistics carry the
      `defaultdict` entry the read inserts. */
  function StatsString(s: Stats, cd: Connection): (res: (Stats, Result<LiveSummary, PyError>))
    ensures res.0 == Touch(s, cd)
    ensures Valid(s) ==> Valid(res.0)
    ensures var xs := Samples(s, cd);
      && (res.1.Failure? <==> |xs| == 0 || |Window(xs, s.avgSize)| == 0)
      && (res.1.Failure? ==> res.1.error == if |xs| == 0 then IndexError else StatisticsError)
    ensures res.1.Success? ==>
      var xs := Samples(s, cd);
      var sum := res.1.value;
      && |xs| > 0 && sum.currentPing == xs[|xs| - 1]
      && sum.minPing in xs && sum.maxPing in xs
      && (forall i :: 0 <= i < |xs| ==> sum.minPing <= xs[i] <= sum.maxPing)
      && sum.windowSize == (if |xs| <= s.avgSize then |xs| else s.avgSize)
      && sum.rollingAverage == Mean(Window(xs, s.avgSize))
  {
    var xs := Samples(s, cd);
    var t := Touch(s, cd);
    if |xs| == 0 then (t, Failure(IndexError))
    else
      var w := Window(xs, s.avgSize);
      if |w| == 0 then (t, Failure(StatisticsError))
      else
        var shown := if |xs| <= s.avgSize then |xs| else s.avgSize;
        (t, Success(LiveSummary(xs[|xs| - 1], Min(xs), Max(xs), shown, Mean(w))))
  }

  /** `end_session`: with no connection or the "no connection" sentinel
      address it does nothing. Otherwise `min` of the samples raises
      `ValueError` when there are none, a missing start time raises
      `KeyError`, and on success the row is produced and the connection is
      forgotten by all three dictionaries. The percentiles are empty when
      there are fewer than two samples. */
  function EndSession(s: Stats, cd: Option<Connection>, now: int): (out: EndOutcome)
    ensures cd.None? || cd.value.ip == LogReaders.NoIp ==> out == Ended(s, None)
    ensures cd.Some? && cd.value.ip != LogReaders.NoIp ==>
      var c := cd.value;
      && (out.Raised? <==> |Samples(s, c)| == 0 || c !in s.pingStartTime)
      && (out.Raised? ==> out.stats == Touch(s, c))
      && (out.Raised? ==> out.error == if |Samples(s, c)| == 0 then ValueError else KeyError)
      && (out.Ended? ==>
            && out.row.Some?
            && c !in out.stats.recentPings && c !in out.stats.pingCount && c !in out.stats.pingStartTime
            && out.stats.recentPings == s.recentPings - {c}
            && out.stats.pingCount == s.pingCount - {c}
            && out.stats.pingStartTime == s.pingStartTime - {c}
            && out.stats.currentConnection == s.currentConnection
            && out.row.value.startTime == s.pingStartTime[c] && out.row.value.endTime == now
            && out.row.value.ip == c.ip && out.row.value.port == c.port
            && out.row.value.count == Count(s, c)
            && out.row.value.minPing == Min(Samples(s, c)) && out.row.value.maxPing == Max(Samples(s, c))
            && out.row.value.median == Median(Samples(s, c)) && out.row.value.mean == Mean(Samples(s, c))
            && out.row.value.percentile75 == TopQuantile(Samples(s, c), 4)
            && out.row.value.percentile90 == TopQuantile(Samples(s, c), 10))
    ensures out.Ended? && out.row.Some? ==>
      var row := out.row.value;
      && row.minPing <= row.maxPing
      && row.minPing as real <= row.median <= row.maxPing as real
      && row.minPing as real <= row.mean <= row.maxPing as real
      && (row.percentile75.Some? ==> row.minPing as real <= row.percentile75.value <= row.maxPing as real)
      && (row.percentile90.Some? ==> row.minPing as real <= row.percentile90.value <= row.maxPing as real)
      && (row.percentile75.Some? <==> row.percentile90.Some?)
    ensures Valid(s) ==> Valid(out.stats)
  {
    if cd.None? || cd.value.ip == LogReaders.NoIp then Ended(s, None)
    else
      var c := cd.value;
      var xs := Samples(s, c);
      var t := Touch(s, c);
      if |xs| == 0 then Raised(t, ValueError)
      else if c !in s.pingStartTime then Raised(t, KeyError)
      else
        MeanBetweenMinMax(xs);
        var row := SessionRow(
          s.pingStartTime[c], now, c.ip, c.port, Count(s, c),
          Min(xs), Max(xs), Median(xs), Mean(xs), TopQuantile(xs, 4), TopQuantile(xs, 10));
        Ended(Stats(s.avgSize, s.recentPings - {c}, s.pingCount - {c}, s.pingStartTime - {c},
                    s.currentConnection),
              Some(row))
  }

  /** In a consistent state, ending a session that has samples never meets
      the missing start time: it writes a row whose count is the number of
      samples. */
  lemma EndSessionCounts(s: Stats, c: Connection, now: int)
    requires Valid(s) && c.ip != LogReaders.NoIp && |Samples(s, c)| > 0
    ensures var out := EndSession(s, Some(c), now);
      out.Ended? && out.row.Some? && out.row.value.count == |Samples(s, c)|
  {
  }

  /** Bounds on every sample hold on every suffix. */
  lemma SuffixBounds(xs: seq<int>, k: nat, lo: int, hi: int)
    requires k <= |xs| && forall i :: 0 <= i < |xs| ==> lo <= xs[i] <= hi
    ensures forall i :: 0 <= i < |xs| - k ==> lo <= xs[k..][i] <= hi
  {
    assert forall i :: 0 <= i < |xs| - k ==> xs[k..][i] == xs[k + i];
  }

  /** The live summary's rolling average lies between the minimum and the maximum. */
  lemma RollingAverageBetween(s: Stats, cd: Connection)
    requires StatsString(s, cd).1.Success?
    ensures var sum := StatsString(s, cd).1.value;
      sum.minPing as real <= sum.rollingAverage <= sum.maxPing as real
  {
    var xs := Samples(s, cd);
    var w := Window(xs, s.avgSize);
    var sum := StatsString(s, cd).1.value;
    SuffixBounds(xs, |xs| - |w|, sum.minPing, sum.maxPing);
    MeanBetween(w, sum.minPing, sum.maxPing);
  }

  /** A session's samples, each with the clock reading at which it was
      added, added in order. */
  function AddAll(s: Stats, cd: Connection, samples: seq<(int, int)>): Stats
  {
    if |samples| == 0 then s
    else
      var last := samples[|samples| - 1];
      Add(AddAll(s, cd, samples[..|samples| - 1]), cd, last.0, last.1)
  }

  /** The sample values of a run, without their clock readings. */
  function Times(samples: seq<(int, int)>): (ts: seq<int>)
    ensures |ts| == |samples|
    ensures forall i :: 0 <= i < |samples| ==> ts[i] == samples[i].0
  {
    seq(|samples|, i requires 0 <= i < |samples| => samples[i].0)
  }

  /** Adding a run of samples appends their times. */
  lemma {:induction false} AddAllTimes(s: Stats, cd: Connection, samples: seq<(int, int)>)
    ensures Samples(AddAll(s, cd, samples), cd) == Samples(s, cd) + Times(samples)
  {
    if |samples| == 0 {
      assert Samples(s, cd) + Times(samples) == Samples(s, cd);
    } else {
      var init := samples[..|samples| - 1];
      var t := samples[|samples| - 1].0;
      AddAllTimes(s, cd, init);
      assert Times(samples) == Times(init) + [t];
    }
  }

  /** Adding a run of samples counts them. */
  lemma {:induction false} AddAllCount(s: Stats, cd: Connection, samples: seq<(int, int)>)
    ensures Count(AddAll(s, cd, samples), cd) == Count(s, cd) + |samples|
  {
    if |samples| > 0 {
      AddAllCount(s, cd, samples[..|samples| - 1]);
    }
  }

  /** Adding a run of samples appends their times and counts them. */
  lemma AddAllSamples(s: Stats, cd: Connection, samples: seq<(int, int)>)
    ensures var r := AddAll(s, cd, samples);
      && Samples(r, cd) == Samples(s, cd) + Times(samples)
      && Count(r, cd) == Count(s, cd) + |samples|
  {
    AddAllTimes(s, cd, samples);
    AddAllCount(s, cd, samples);
  }

  /** Adding a run of samples keeps the start time of the first and leaves
      every other connection alone. */
  lemma {:induction false} AddAllFrame(s: Stats, cd: Connection, samples: seq<(int, int)>)
    requires |samples| > 0
    ensures var r := AddAll(s, cd, samples);
      && cd in r.pingStartTime
      && r.pingStartTime[cd] == (if cd in s.pingStartTime then s.pingStartTime[cd] else samples[0].1)
      && r.recentPings - {cd} == s.recentPings - {cd}
      && r.pingCount - {cd} == s.pingCount - {cd}
      && r.pingStartTime - {cd} == s.pingStartTime - {cd}
      && r.currentConnection == Some(cd) && r.avgSize == s.avgSize
  {
    var init := samples[..|samples| - 1];
    var last := samples[|samples| - 1];
    AddFrame(AddAll(s, cd, init), cd, last.0, last.1);
    if |init| > 0 {
      AddAllFrame(s, cd, init);
    }
  }

  /** Adding a run of samples keeps the dictionaries consistent. */
  lemma {:induction false} AddAllValid(s: Stats, cd: Connection, samples: seq<(int, int)>)
    requires Valid(s)
    ensures Valid(AddAll(s, cd, samples))
  {
    if |samples| > 0 {
      var init := samples[..|samples| - 1];
      var last := samples[|samples| - 1];
      AddAllValid(s, cd, init);
      AddValid(AddAll(s, cd, init), cd, last.0, last.1);
    }
  }

  /** A whole session: starting from a consistent state in which `cd` has no
      session, adding samples and then ending the session writes the row of
      exactly those samples, started at the first sample's clock reading,
      and leaves the dictionaries as they were, less any empty entry for `cd`. */
  lemma SessionRoundTrip(s: Stats, cd: Connection, samples: seq<(int, int)>, now: int)
    requires Valid(s) && cd !in s.pingCount && cd.ip != LogReaders.NoIp && |samples| > 0
    ensures var ts := Times(samples);
      var out := EndSession(AddAll(s, cd, samples), Some(cd), now);
      && out.Ended?
      && out.row == Some(SessionRow(samples[0].1, now, cd.ip, cd.port, |samples|,
                                    Min(ts), Max(ts), Median(ts), Mean(ts),
                                    TopQuantile(ts, 4), TopQuantile(ts, 10)))
      && out.stats.recentPings == s.recentPings - {cd}
      && out.stats.pingCount == s.pingCount
      && out.stats.pingStartTime == s.pingStartTime
      && out.stats.currentConnection == Some(cd)
  {
    assert Samples(s, cd) == [] && Count(s, cd) == 0;
    AddAllSamples(s, cd, samples);
    AddAllFrame(s, cd, samples);
    EndAfterAdds(s, AddAll(s, cd, samples), cd, samples, now);
  }

  /** Ending the session of a state `r` that differs from `s` only by the
      samples of `cd`, all added since `s`. */
  lemma EndAfterAdds(s: Stats, r: Stats, cd: Connection, samples: seq<(int, int)>, now: int)
    requires Valid(s) && cd !in s.pingCount && cd.ip != LogReaders.NoIp && |samples| > 0
    requires Samples(r, cd) == Times(samples) && Count(r, cd) == |samples|
    requires cd in r.pingStartTime && r.pingStartTime[cd] == samples[0].1
    requires r.recentPings - {cd} == s.recentPings - {cd}
    requires r.pingCount - {cd} == s.pingCount - {cd}
    requires r.pingStartTime - {cd} == s.pingStartTime - {cd}
    requires r.currentConnection == Some(cd)
    ensures var ts := Times(samples);
      var out := EndSession(r, Some(cd), now);
      && out.Ended?
      && out.row == Some(SessionRow(samples[0].1, now, cd.ip, cd.port, |samples|,
                                    Min(ts), Max(ts), Median(ts), Mean(ts),
                                    TopQuantile(ts, 4), TopQuantile(ts, 10)))
      && out.stats.recentPings == s.recentPings - {cd}
      && out.stats.pingCount == s.pingCount
      && out.stats.pingStartTime == s.pingStartTime
      && out.stats.currentConnection == Some(cd)
  {
    assert cd !in s.pingStartTime;
    assert s.pingCount - {cd} == s.pingCount;
    assert s.pingStartTime - {cd} == s.pingStartTime;
  }
}

=== FILE: statistics.dfy ===
/** The parts of Python's `statistics` module the latency statistics use —
    `min`, `max`, `median`, `mean` and `quantiles(..., method='inclusive')` —
    over integer samples, with `real` standing for exact rational results
    (the rounding to `float` is not modelled). */
module Statistics {
  import opened Wrappers

  function Sum(xs: seq<int>): int
  {
    if |xs| == 0 then 0 else Sum(xs[..|xs| - 1]) + xs[|xs| - 1]
  }

  /** Python's `min` of a non-empty list. */
  function Min(xs: seq<int>): (m: int)
    requires |xs| > 0
    ensures m in xs
    ensures forall i :: 0 <= i < |xs| ==> m <= xs[i]
  {
    if |xs| == 1 then xs[0]
    else
      var rest := Min(xs[..|xs| - 1]);
      assert xs == xs[..|xs| - 1] + [xs[|xs| - 1]];
      if xs[|xs| - 1] < rest then xs[|xs| - 1] else rest
  }

  /** Python's `max` of a non-empty list. */
  function Max(xs: seq<int>): (m: int)
    requires |xs| > 0
    ensures m in xs
    ensures forall i :: 0 <= i < |xs| ==> xs[i] <= m
  {
    if |xs| == 1 then xs[0]
    else
      var rest := Max(xs[..|xs| - 1]);
      assert xs == xs[..|xs| - 1] + [xs[|xs| - 1]];
      if xs[|xs| - 1] > rest then xs[|xs| - 1] else rest
  }

  /** `statistics.mean`: the exact arithmetic mean. */
  function Mean(xs: seq<int>): real
    requires |xs| > 0
  {
    Sum(xs) as real / |xs| as real
  }

  /** The sum lies between `|xs|` times the least and `|xs|` times the greatest sample. */
  lemma {:induction false} SumBounds(xs: seq<int>, lo: int, hi: int)
    requires forall i :: 0 <= i < |xs| ==> lo <= xs[i] <= hi
    ensures lo * |xs| <= Sum(xs) <= hi * |xs|
  {
    if |xs| > 0 {
      var init := xs[..|xs| - 1];
      assert forall i :: 0 <= i < |init| ==> init[i] == xs[i];
      SumBounds(init, lo, hi);
      assert lo * |xs| == lo * |init| + lo;
      assert hi * |xs| == hi * |init| + hi;
    }
  }

  /** `lo * n <= t <= hi * n` gives `lo <= t / n <= hi` in exact arithmetic. */
  lemma DivideBounds(t: int, n: int, lo: int, hi: int)
    requires n > 0 && lo * n <= t <= hi * n
    ensures lo as real <= t as real / n as real <= hi as real
  {
    assert (lo * n) as real == lo as real * n as real;
    assert (hi * n) as real == hi as real * n as real;
  }

  /** The mean lies within any bounds on the samples. */
  lemma MeanBetween(xs: seq<int>, lo: int, hi: int)
    requires |xs| > 0 && forall i :: 0 <= i < |xs| ==> lo <= xs[i] <= hi
    ensures lo as real <= Mean(xs) <= hi as real
  {
    SumBounds(xs, lo, hi);
    DivideBounds(Sum(xs), |xs|, lo, hi);
  }

  /** The mean lies between the minimum and the maximum. */
  lemma MeanBetweenMinMax(xs: seq<int>)
    requires |xs| > 0
    ensures Min(xs) as real <= Mean(xs) <= Max(xs) as real
  {
    MeanBetween(xs, Min(xs), Max(xs));
  }

  // ---------------------------------------------------------------------------
  // Sorting

  predicate Sorted(xs: seq<int>) {
    forall i, j :: 0 <= i < j < |xs| ==> xs[i] <= xs[j]
  }

  /** `x` inserted into a sorted list at its place. */
  function Insert(x: int, xs: seq<int>): (r: seq<int>)
    requires Sorted(xs)
    ensures Sorted(r)
    ensures multiset(r) == multiset(xs) + multiset{x}
    ensures |r| == |xs| + 1
    ensures r[0] == if |xs| == 0 || x <= xs[0] then x else xs[0]
  {
    if |xs| == 0 then [x]
    else if x <= xs[0] then [x] + xs
    else
      var rest := Insert(x, xs[1..]);
      assert xs == [xs[0]] + xs[1..];
      assert xs[0] <= rest[0];
      [xs[0]] + rest
  }

  /** Python's `sorted`: an ascending permutation of the samples. */
  function Sort(xs: seq<int>): (r: seq<int>)
    ensures Sorted(r)
    ensures multiset(r) == multiset(xs)
    ensures |r| == |xs|
  {
    if |xs| == 0 then []
    else
      assert xs == xs[..|xs| - 1] + [xs[|xs| - 1]];
      Insert(xs[|xs| - 1], Sort(xs[..|xs| - 1]))
  }

  /** A sorted permutation starts with the minimum and ends with the maximum. */
  lemma SortEnds(xs: seq<int>)
    requires |xs| > 0
    ensures Sort(xs)[0] == Min(xs) && Sort(xs)[|xs| - 1] == Max(xs)
  {
    var d := Sort(xs);
    SortedStartsAtMin(d, xs);
    SortedEndsAtMax(d, xs);
  }

  /** A sorted permutation of `xs` starts with `xs`'s minimum. */
  lemma SortedStartsAtMin(d: seq<int>, xs: seq<int>)
    requires |xs| > 0 && Sorted(d) && multiset(d) == multiset(xs)
    ensures |d| == |xs| && d[0] == Min(xs)
  {
    assert |d| == |multiset(d)| == |multiset(xs)| == |xs|;
    var m := Min(xs);
    assert m in multiset(d);
    var k :| 0 <= k < |d| && d[k] == m;
    assert d[0] <= m;
    assert d[0] in multiset(xs);
    var i :| 0 <= i < |xs| && xs[i] == d[0];
    assert m <= d[0];
  }

  /** A sorted permutation of `xs` ends with `xs`'s maximum. */
  lemma SortedEndsAtMax(d: seq<int>, xs: seq<int>)
    requires |xs| > 0 && Sorted(d) && multiset(d) == multiset(xs)
    ensures |d| == |xs| && d[|d| - 1] == Max(xs)
  {
    assert |d| == |multiset(d)| == |multiset(xs)| == |xs|;
    var m := Max(xs);
    var last := d[|d| - 1];
    assert m in multiset(d);
    var k :| 0 <= k < |d| && d[k] == m;
    assert m <= last;
    assert last in multiset(xs);
    var i :| 0 <= i < |xs| && xs[i] == last;
    assert last <= m;
  }

  /** A non-empty list is its first element and its tail, as a multiset too. */
  lemma MultisetHeadTail(a: seq<int>)
    requires |a| > 0
    ensures multiset(a) == multiset{a[0]} + multiset(a[1..])
    ensures multiset(a[1..]) == multiset(a) - multiset{a[0]}
  {
    assert a == [a[0]] + a[1..];
  }

  lemma SortedTail(a: seq<int>)
    requires |a| > 0 && Sorted(a)
    ensures Sorted(a[1..])
  {
    assert forall i :: 0 <= i < |a| - 1 ==> a[1..][i] == a[i + 1];
  }

  /** There is only one sorted arrangement of a multiset of samples. */
  lemma {:induction false} SortedUnique(a: seq<int>, b: seq<int>)
    requires Sorted(a) && Sorted(b) && multiset(a) == multiset(b)
    ensures a == b
    decreases |a|
  {
    if |a| > 0 {
      assert |b| == |a| && b[0] == a[0] by {
        SortedStartsAtMin(a, a);
        SortedStartsAtMin(b, a);
      }
      assert multiset(a[1..]) == multiset(b[1..]) by {
        MultisetHeadTail(a);
        MultisetHeadTail(b);
      }
      assert Sorted(a[1..]) && Sorted(b[1..]) by {
        SortedTail(a);
        SortedTail(b);
      }
      SortedUnique(a[1..], b[1..]);
      assert forall i :: 1 <= i < |a| ==> a[i] == a[1..][i - 1] && b[i] == b[1..][i - 1];
    }
  }

  /** `sorted` depends only on which samples there are, not on their order. */
  lemma SortOrderFree(xs: seq<int>, ys: seq<int>)
    requires multiset(xs) == multiset(ys)
    ensures Sort(xs) == Sort(ys)
  {
    SortedUnique(Sort(xs), Sort(ys));
  }

  /** Sorting an already sorted list gives it back. */
  lemma SortSorted(xs: seq<int>)
    requires Sorted(xs)
    ensures Sort(xs) == xs
  {
    SortedUnique(Sort(xs), xs);
  }

  /** Every element of the sorted list lies between the minimum and the maximum. */
  lemma SortedBetween(xs: seq<int>, k: nat)
    requires k < |xs|
    ensures Min(xs) <= Sort(xs)[k] <= Max(xs)
  {
    SortEnds(xs);
  }

  // ---------------------------------------------------------------------------
  // Median and quantiles

  /** The middle of a sorted list: its middle element, or the mean of the
      two middle ones for an even length. */
  function Middle(d: seq<int>): (m: real)
    requires |d| > 0
    ensures Sorted(d) ==> d[0] as real <= m <= d[|d| - 1] as real
  {
    var n := |d|;
    if n % 2 == 1 then d[n / 2] as real
    else (d[n / 2 - 1] + d[n / 2]) as real / 2.0
  }

  /** `statistics.median`: the middle of the sorted samples. */
  function Median(xs: seq<int>): (m: real)
    requires |xs| > 0
    ensures Min(xs) as real <= m <= Max(xs) as real
  {
    SortEnds(xs);
    Middle(Sort(xs))
  }

  /** The position of cut `i` of `n` over `m + 1` points falls before the last point. */
  lemma CutIndex(i: int, m: int, n: int)
    requires m >= 1 && 1 <= i < n
    ensures 0 <= (i * m) / n < m && 0 <= (i * m) % n < n
  {
    assert 0 <= i * m < n * m;
  }

  /** A weighted sum of two ordered points lies between the two, scaled. */
  lemma Interpolation(a: int, b: int, n: int, delta: int)
    requires a <= b && 0 <= delta < n
    ensures a * n <= a * (n - delta) + b * delta <= b * n
  {
    assert a * (n - delta) + b * delta - a * n == (b - a) * delta;
    assert b * n - (a * (n - delta) + b * delta) == (b - a) * (n - delta);
  }

  /** Cut point `i` of `n` under the inclusive method, over the sorted data
      `d`: the value at position `i * (|d| - 1) / n`, interpolated linearly
      between its two neighbours. */
  function InclusiveCut(d: seq<int>, i: int, n: int): (v: real)
    requires |d| >= 2 && 1 <= i < n
    ensures Sorted(d) ==> d[0] as real <= v <= d[|d| - 1] as real
  {
    var m := |d| - 1;
    CutIndex(i, m, n);
    var j := (i * m) / n;
    var delta := (i * m) % n;
    var total := d[j] * (n - delta) + d[j + 1] * delta;
    var v := total as real / n as real;
    assert Sorted(d) ==> d[0] as real <= v <= d[m] as real by {
      if Sorted(d) {
        assert d[0] <= d[j] <= d[j + 1] <= d[m];
        Interpolation(d[j], d[j + 1], n, delta);
        DivideBounds(total, n, d[j], d[j + 1]);
      }
    }
    v
  }

  /** `statistics.quantiles(xs, n=n, method='inclusive')` as Python 3.9 to 3.12
      compute it: `n - 1` cut points, or `StatisticsError` for `n < 1` or for
      fewer than two samples. */
  function Quantiles(xs: seq<int>, n: int): (res: Result<seq<real>, PyError>)
    ensures res.Failure? <==> n < 1 || |xs| < 2
    ensures res.Failure? ==> res.error == StatisticsError
    ensures res.Success? ==> |res.value| == n - 1
    ensures res.Success? ==> forall k :: 0 <= k < |res.value| ==>
      Min(xs) as real <= res.value[k] <= Max(xs) as real
  {
    if n < 1 || |xs| < 2 then Failure(StatisticsError)
    else
      var d := Sort(xs);
      SortEnds(xs);
      Success(seq(n - 1, k requires 0 <= k < n - 1 => InclusiveCut(d, k + 1, n)))
  }

  /** `float(quantiles(xs, n=n, method='inclusive')[-1])` with the
      `StatisticsError` caught: the highest cut point, or `None` where the
      code writes an empty field. */
  function TopQuantile(xs: seq<int>, n: int): (r: Option<real>)
    requires n >= 2
    ensures r.None? <==> |xs| < 2
    ensures r.Some? ==> r.value == InclusiveCut(Sort(xs), n - 1, n)
    ensures r.Some? ==> Min(xs) as real <= r.value <= Max(xs) as real
  {
    match Quantiles(xs, n)
    case Failure(_) => None
    case Success(cuts) => Some(cuts[n - 2])
  }

  /** A cut point that falls exactly on a sample is that sample. */
  lemma InclusiveCutOnSample(d: seq<int>, i: int, n: int)
    requires |d| >= 2 && 1 <= i < n
    requires (i * (|d| - 1)) % n == 0
    ensures InclusiveCut(d, i, n) == d[(i * (|d| - 1)) / n] as real
  {
  }

  lemma {:induction false} SumAppend(a: seq<int>, b: seq<int>)
    ensures Sum(a + b) == Sum(a) + Sum(b)
    decreases |b|
  {
    if |b| == 0 {
      assert a + b == a;
    } else {
      assert (a + b)[..|a + b| - 1] == a + b[..|b| - 1];
      SumAppend(a, b[..|b| - 1]);
    }
  }

  /** Appending one sample adds its value to the sum. */
  lemma SumSnoc(a: seq<int>, y: int)
    ensures Sum(a + [y]) == Sum(a) + y
  {
    assert (a + [y])[..|a|] == a;
  }

  /** Taking one sample out of a list takes its value out of the sum. */
  lemma SumRemove(a: seq<int>, y: int, b: seq<int>)
    ensures Sum(a + [y] + b) == Sum(a + b) + y
  {
    SumAppend(a + [y], b);
    SumSnoc(a, y);
    SumAppend(a, b);
  }

  /** The sum depends only on which samples there are, not on their order. */
  lemma {:induction false} SumOrderFree(xs: seq<int>, ys: seq<int>)
    requires multiset(xs) == multiset(ys)
    ensures Sum(xs) == Sum(ys)
    decreases |xs|
  {
    if |xs| > 0 {
      var x, init := xs[|xs| - 1], xs[..|xs| - 1];
      assert xs == init + [x];
      assert x in multiset(ys);
      var k :| 0 <= k < |ys| && ys[k] == x;
      var a, b := ys[..k], ys[k + 1..];
      assert ys == a + [x] + b;
      assert multiset(a + b) == multiset(init) by {
        assert multiset(ys) == multiset(a) + multiset{x} + multiset(b);
        assert multiset(a + b) == multiset(ys) - multiset{x};
        assert multiset(init) == multiset(xs) - multiset{x};
      }
      SumOrderFree(init, a + b);
      SumSnoc(init, x);
      SumRemove(a, x, b);
    }
  }

  /** `min` and `max` depend only on which samples there are. */
  lemma MinMaxOrderFree(xs: seq<int>, ys: seq<int>)
    requires |xs| > 0 && multiset(xs) == multiset(ys)
    ensures |ys| == |xs| && Min(xs) == Min(ys) && Max(xs) == Max(ys)
  {
    assert |xs| == |multiset(xs)| == |multiset(ys)| == |ys|;
    SortOrderFree(xs, ys);
    SortEnds(xs);
    SortEnds(ys);
  }

  /** `median` depends only on which samples there are. */
  lemma MedianOrderFree(xs: seq<int>, ys: seq<int>)
    requires |xs| > 0 && multiset(xs) == multiset(ys)
    ensures |ys| == |xs| && Median(xs) == Median(ys)
  {
    assert |xs| == |multiset(xs)| == |multiset(ys)| == |ys|;
    SortOrderFree(xs, ys);
  }

  /** `mean` depends only on which samples there are. */
  lemma MeanOrderFree(xs: seq<int>, ys: seq<int>)
    requires |xs| > 0 && multiset(xs) == multiset(ys)
    ensures |ys| == |xs| && Mean(xs) == Mean(ys)
  {
    assert |xs| == |multiset(xs)| == |multiset(ys)| == |ys|;
    SumOrderFree(xs, ys);
  }

  /** `quantiles` depends only on which samples there are. */
  lemma QuantilesOrderFree(xs: seq<int>, ys: seq<int>, n: int)
    requires multiset(xs) == multiset(ys)
    ensures Quantiles(xs, n) == Quantiles(ys, n)
  {
    assert |xs| == |multiset(xs)| == |multiset(ys)| == |ys|;
    SortOrderFree(xs, ys);
  }

  /** The statistics of a session depend only on which samples were taken,
      not on the order they came in. */
  lemma StatisticsOrderFree(xs: seq<int>, ys: seq<int>, n: int)
    requires |xs| > 0 && multiset(xs) == multiset(ys)
    ensures |ys| == |xs|
    ensures Min(xs) == Min(ys) && Max(xs) == Max(ys)
    ensures Median(xs) == Median(ys) && Mean(xs) == Mean(ys)
    ensures Quantiles(xs, n) == Quantiles(ys, n)
  {
    MinMaxOrderFree(xs, ys);
    MedianOrderFree(xs, ys);
    MeanOrderFree(xs, ys);
    QuantilesOrderFree(xs, ys, n);
  }

  lemma SortThreeSamples()
    ensures Sort([10, 20, 30]) == [10, 20, 30]
  {
    assert [10, 20, 30][..2] == [10, 20];
    assert [10, 20][..1] == [10];
    assert [10][..0] == [];
    assert Sort([10]) == [10];
    assert Sort([10, 20]) == [10, 20];
  }

  lemma ThreeSampleMinMax()
    ensures Min([10, 20, 30]) == 10 && Max([10, 20, 30]) == 30
  {
    assert [10, 20, 30][..2] == [10, 20];
    assert [10, 20][..1] == [10];
  }

  lemma ThreeSampleMedian()
    ensures Median([10, 20, 30]) == 20.0
  {
    SortThreeSamples();
  }

  lemma ThreeSampleMean()
    ensures Mean([10, 20, 30]) == 20.0
  {
    var xs := [10, 20, 30];
    assert xs[..2] == [10, 20];
    assert [10, 20][..1] == [10];
    assert [10][..0] == [];
    assert Sum(xs) == 60;
  }

  lemma ThreeSampleQuartile()
    ensures TopQuantile([10, 20, 30], 4) == Some(25.0)
  {
    SortThreeSamples();
    assert InclusiveCut([10, 20, 30], 3, 4) == 25.0;
  }

  lemma ThreeSampleDecile()
    ensures TopQuantile([10, 20, 30], 10) == Some(28.0)
  {
    SortThreeSamples();
    assert InclusiveCut([10, 20, 30], 9, 10) == 28.0;
  }

  /** With samples 10, 20 and 30 the row carries minimum 10, maximum 30,
      median 20, mean 20, 75th percentile 25 and 90th percentile 28. */
  lemma ThreeSampleExample()
    ensures var xs := [10, 20, 30];
      && Min(xs) == 10 && Max(xs) == 30 && Median(xs) == 20.0 && Mean(xs) == 20.0
      && TopQuantile(xs, 4) == Some(25.0) && TopQuantile(xs, 10) == Some(28.0)
  {
    ThreeSampleMinMax();
    ThreeSampleMedian();
    ThreeSampleMean();
    ThreeSampleQuartile();
    ThreeSampleDecile();
  }
}

=== FILE: text.dfy ===
/** The handful of Python `str` operations the modelled code relies on:
    the `in` substring test, whitespace `split()`, `split(sep)`, `strip()`,
    iteration over the lines of a text file, and `int()` of a decimal string. */
module Text {
  import opened Wrappers

  /** Python's `str.isspace` for one character: the characters `split()` and
      `strip()` treat as whitespace. */
  predicate IsSpace(c: char) {
    var n := c as int;
    || (0x09 <= n <= 0x0D) || (0x1C <= n <= 0x20)
    || n == 0x85 || n == 0xA0 || n == 0x1680
    || (0x2000 <= n <= 0x200A) || n == 0x2028 || n == 0x2029
    || n == 0x202F || n == 0x205F || n == 0x3000
  }

  /** A token that whitespace `split()` can return: non-empty, no whitespace. */
  predicate IsWord(w: string) {
    |w| > 0 && forall i :: 0 <= i < |w| ==> !IsSpace(w[i])
  }

  /** Python's `sub in s`. */
  predicate Contains(s: string, sub: string) {
    exists i :: 0 <= i <= |s| && sub <= s[i..]
  }

  /** A string containing a non-whitespace character has one itself. */
  lemma ContainsNonSpace(s: string, sub: string, k: nat)
    requires Contains(s, sub)
    requires k < |sub| && !IsSpace(sub[k])
    ensures exists j :: 0 <= j < |s| && !IsSpace(s[j])
  {
    var i :| 0 <= i <= |s| && sub <= s[i..];
    assert s[i..][k] == sub[k];
    assert s[i + k] == sub[k];
  }

  /** The index of the first line holding `marker`, if any. */
  function FirstWith(lines: seq<string>, marker: string): (k: Option<nat>)
    ensures k.Some? ==> k.value < |lines| && Contains(lines[k.value], marker)
    ensures k.Some? ==> forall j :: 0 <= j < k.value ==> !Contains(lines[j], marker)
    ensures k.None? ==> forall j :: 0 <= j < |lines| ==> !Contains(lines[j], marker)
  {
    if |lines| == 0 then None
    else if Contains(lines[0], marker) then Some(0)
    else
      match FirstWith(lines[1..], marker)
      case None => None
      case Some(k) => Some(k + 1)
  }

  /** The index of the last line holding `a` or `b`, if any, searched from the end. */
  function LastWithEither(lines: seq<string>, a: string, b: string): (k: Option<nat>)
    ensures k.Some? ==> k.value < |lines| && (Contains(lines[k.value], a) || Contains(lines[k.value], b))
    ensures k.Some? ==> forall j :: k.value < j < |lines| ==> !Contains(lines[j], a) && !Contains(lines[j], b)
    ensures k.None? ==> forall j :: 0 <= j < |lines| ==> !Contains(lines[j], a) && !Contains(lines[j], b)
  {
    if |lines| == 0 then None
    else if Contains(lines[|lines| - 1], a) || Contains(lines[|lines| - 1], b) then Some(|lines| - 1)
    else LastWithEither(lines[..|lines| - 1], a, b)
  }

  // ---------------------------------------------------------------------------
  // Whitespace split

  /** `s` without its leading whitespace. */
  function DropSpaces(s: string): (r: string)
    ensures |r| <= |s| && r == s[|s| - |r|..]
    ensures |r| == 0 || !IsSpace(r[0])
    ensures forall i :: 0 <= i < |s| - |r| ==> IsSpace(s[i])
  {
    if |s| == 0 || !IsSpace(s[0]) then s else DropSpaces(s[1..])
  }

  /** The length of the run of non-whitespace characters that starts `s`. */
  function WordLength(s: string): (n: nat)
    ensures n <= |s|
    ensures forall i :: 0 <= i < n ==> !IsSpace(s[i])
    ensures n == |s| || IsSpace(s[n])
  {
    if |s| == 0 || IsSpace(s[0]) then 0 else 1 + WordLength(s[1..])
  }

  /** Python's `s.split()`: the maximal runs of non-whitespace characters, in order. */
  function Split(s: string): seq<string>
    decreases |s|
  {
    var t := DropSpaces(s);
    if |t| == 0 then []
    else
      var n := WordLength(t);
      [t[..n]] + Split(t[n..])
  }

  /** Every token of `s.split()` is non-empty and free of whitespace. */
  lemma {:induction false} SplitWords(s: string)
    ensures forall i :: 0 <= i < |Split(s)| ==> IsWord(Split(s)[i])
    decreases |s|
  {
    var t := DropSpaces(s);
    if |t| > 0 {
      var n := WordLength(t);
      WordPrefix(t);
      SplitWords(t[n..]);
      var r, rest := Split(s), Split(t[n..]);
      assert r == [t[..n]] + rest;
      forall i | 0 <= i < |r|
        ensures IsWord(r[i])
      {
        if i > 0 {
          assert r[i] == rest[i - 1];
        }
      }
    }
  }

  /** The run of non-whitespace that starts a string not starting with
      whitespace is a token. */
  lemma WordPrefix(t: string)
    requires |t| > 0 && !IsSpace(t[0])
    ensures WordLength(t) > 0 && IsWord(t[..WordLength(t)])
  {
    var n := WordLength(t);
    assert forall i :: 0 <= i < n ==> t[..n][i] == t[i];
  }

  /** `s.split()` is empty exactly when `s` is all whitespace. */
  lemma SplitEmptyIff(s: string)
    ensures |Split(s)| == 0 <==> forall i :: 0 <= i < |s| ==> IsSpace(s[i])
  {
    var t := DropSpaces(s);
    if |t| > 0 {
      assert s[|s| - |t|] == t[0];
    }
  }

  /** A string holding a non-whitespace character splits into at least one token. */
  lemma SplitNonEmpty(s: string, j: nat)
    requires j < |s| && !IsSpace(s[j])
    ensures |Split(s)| > 0
  {
    SplitEmptyIff(s);
  }

  /** A string containing a text that starts with a non-whitespace character
      has a whitespace token. */
  lemma ContainsWordHasToken(line: string, marker: string)
    requires |marker| > 0 && !IsSpace(marker[0]) && Contains(line, marker)
    ensures |Split(line)| > 0
  {
    ContainsNonSpace(line, marker, 0);
    var j :| 0 <= j < |line| && !IsSpace(line[j]);
    SplitNonEmpty(line, j);
  }

  /** Python's `line.split()[-1]`. */
  function LastToken(line: string): (r: string)
    requires |Split(line)| > 0
    ensures IsWord(r) && r in Split(line)
    ensures Split(line) == Split(line)[..|Split(line)| - 1] + [r]
  {
    var tokens := Split(line);
    SplitWords(line);
    assert tokens == tokens[..|tokens| - 1] + [tokens[|tokens| - 1]];
    tokens[|tokens| - 1]
  }

  /** Leading whitespace does not change the split. */
  lemma SplitSkipsSpace(c: char, t: string)
    requires IsSpace(c)
    ensures Split([c] + t) == Split(t)
  {
    assert ([c] + t)[1..] == t;
  }

  /** Python's `' '.join(ws)`. */
  function JoinWords(ws: seq<string>): string
  {
    if |ws| == 0 then ""
    else if |ws| == 1 then ws[0]
    else ws[0] + " " + JoinWords(ws[1..])
  }

  lemma JoinWordsStart(ws: seq<string>)
    requires |ws| > 0 && IsWord(ws[0])
    ensures |JoinWords(ws)| > 0 && JoinWords(ws)[0] == ws[0][0]
  {
  }

  lemma {:induction false} JoinWordsEnd(ws: seq<string>)
    requires |ws| > 0 && IsWord(ws[|ws| - 1])
    ensures |JoinWords(ws)| > 0 && JoinWords(ws)[|JoinWords(ws)| - 1] == ws[|ws| - 1][|ws[|ws| - 1]| - 1]
  {
    if |ws| > 1 {
      var rest := ws[1..];
      JoinWordsEnd(rest);
      assert rest[|rest| - 1] == ws[|ws| - 1];
      assert JoinWords(ws) == ws[0] + " " + JoinWords(rest);
    }
  }

  /** A word followed by whitespace splits off as the first token. */
  lemma SplitWordThen(w: string, rest: string)
    requires IsWord(w)
    requires |rest| == 0 || IsSpace(rest[0])
    ensures Split(w + rest) == [w] + Split(rest)
  {
    var s := w + rest;
    assert DropSpaces(s) == s;
    var n := WordLength(s);
    assert forall i :: 0 <= i < |w| ==> s[i] == w[i];
    assert |rest| > 0 ==> s[|w|] == rest[0];
    assert n == |w|;
    assert s[..n] == w;
    assert s[n..] == rest;
  }

  /** A word, a single space and more text split as the word then that text. */
  lemma SplitWordSpace(w: string, tail: string)
    requires IsWord(w)
    ensures Split(w + " " + tail) == [w] + Split(tail)
  {
    assert w + " " + tail == w + (" " + tail);
    SplitWordThen(w, " " + tail);
    assert " " + tail == [' '] + tail;
    SplitSkipsSpace(' ', tail);
  }

  lemma SplitEmpty()
    ensures Split("") == []
  {
  }

  lemma SplitSingle(w: string)
    requires IsWord(w)
    ensures Split(w) == [w]
  {
    SplitWordThen(w, "");
    assert w + "" == w;
    SplitEmpty();
  }

  /** Splitting words joined with single spaces gives the words back. */
  lemma {:induction false} SplitJoinWords(ws: seq<string>)
    requires forall i :: 0 <= i < |ws| ==> IsWord(ws[i])
    ensures Split(JoinWords(ws)) == ws
  {
    if |ws| == 0 {
      SplitEmpty();
    } else if |ws| == 1 {
      SplitSingle(ws[0]);
    } else {
      var rest := ws[1..];
      var tail := JoinWords(rest);
      assert JoinWords(ws) == ws[0] + " " + tail;
      SplitWordSpace(ws[0], tail);
      assert Split(JoinWords(ws)) == [ws[0]] + Split(tail);
      SplitJoinWords(rest);
      assert [ws[0]] + rest == ws;
    }
  }

  // ---------------------------------------------------------------------------
  // Split on a separator

  /** The index of the first `c` in `s`. */
  function IndexOf(s: string, c: char): (i: nat)
    requires c in s
    ensures i < |s| && s[i] == c && c !in s[..i]
  {
    if s[0] == c then 0 else 1 + IndexOf(s[1..], c)
  }

  /** The first occurrence is the one with no occurrence before it. */
  lemma IndexOfAt(s: string, c: char, j: nat)
    requires j < |s| && s[j] == c && c !in s[..j]
    ensures IndexOf(s, c) == j
  {
    var i := IndexOf(s, c);
    assert forall k :: 0 <= k < j ==> s[..j][k] == s[k];
    assert forall k :: 0 <= k < i ==> s[..i][k] == s[k];
  }

  /** Python's `s.split(c)` for a one-character separator. */
  function SplitOn(s: string, c: char): (r: seq<string>)
    ensures |r| >= 1
    ensures forall i :: 0 <= i < |r| ==> c !in r[i]
    decreases |s|
  {
    if c in s then
      var i := IndexOf(s, c);
      [s[..i]] + SplitOn(s[i + 1..], c)
    else
      [s]
  }

  /** Python's `c.join(parts)` for a one-character separator. */
  function JoinOn(parts: seq<string>, c: char): string
    requires |parts| >= 1
  {
    if |parts| == 1 then parts[0] else parts[0] + [c] + JoinOn(parts[1..], c)
  }

  /** Joining the pieces of a split with the separator restores the string. */
  lemma {:induction false} JoinSplitOn(s: string, c: char)
    ensures JoinOn(SplitOn(s, c), c) == s
    decreases |s|
  {
    if c in s {
      var i := IndexOf(s, c);
      var rest := s[i + 1..];
      var r := SplitOn(s, c);
      assert r == [s[..i]] + SplitOn(rest, c);
      assert r[1..] == SplitOn(rest, c);
      JoinSplitOn(rest, c);
      assert JoinOn(r, c) == s[..i] + [c] + rest;
      assert s == s[..i] + [c] + rest;
    }
  }

  /** Splitting separator-free pieces joined with the separator gives them back. */
  lemma {:induction false} SplitJoinOn(parts: seq<string>, c: char)
    requires |parts| >= 1
    requires forall i :: 0 <= i < |parts| ==> c !in parts[i]
    ensures SplitOn(JoinOn(parts, c), c) == parts
  {
    if |parts| > 1 {
      var tail := JoinOn(parts[1..], c);
      SplitJoinOn(parts[1..], c);
      SplitOnCons(parts[0], c, tail);
      assert [parts[0]] + parts[1..] == parts;
    }
  }

  /** A separator-free piece, the separator and a rest split into the piece
      and the rest's split. */
  lemma SplitOnCons(a: string, c: char, rest: string)
    requires c !in a
    ensures SplitOn(a + [c] + rest, c) == [a] + SplitOn(rest, c)
  {
    var s := a + [c] + rest;
    var i := |a|;
    assert s[..i] == a;
    IndexOfAt(s, c, i);
    assert s[i + 1..] == rest;
  }

  /** `s.split(c)` has exactly two pieces exactly when `c` occurs once in `s`;
      the pieces are then the text before and after it. */
  lemma SplitOnTwo(s: string, c: char)
    ensures var r := SplitOn(s, c);
      |r| == 2 <==> (c in s && c !in s[IndexOf(s, c) + 1..])
    ensures var r := SplitOn(s, c);
      |r| == 2 ==> s == r[0] + [c] + r[1]
  {
    var r := SplitOn(s, c);
    if c in s {
      var i := IndexOf(s, c);
      var rest := s[i + 1..];
      assert r == [s[..i]] + SplitOn(rest, c);
      if c in rest {
        var j := IndexOf(rest, c);
        assert SplitOn(rest, c) == [rest[..j]] + SplitOn(rest[j + 1..], c);
        assert |r| >= 3;
      } else {
        assert r == [s[..i], rest];
        assert s == s[..i] + [c] + rest;
      }
    } else {
      assert r == [s];
    }
  }

  /** Two separator-free pieces joined by the separator split back into them. */
  lemma SplitOnPair(a: string, b: string, c: char)
    requires c !in a && c !in b
    ensures SplitOn(a + [c] + b, c) == [a, b]
  {
    SplitJoinOn([a, b], c);
    assert JoinOn([a, b], c) == a + [c] + b;
  }

  // ---------------------------------------------------------------------------
  // Strip

  /** `s` without its trailing whitespace. */
  function DropTrailingSpaces(s: string): (r: string)
    ensures |r| <= |s| && r == s[..|r|]
    ensures |r| == 0 || !IsSpace(r[|r| - 1])
    ensures forall i :: |r| <= i < |s| ==> IsSpace(s[i])
  {
    if |s| == 0 || !IsSpace(s[|s| - 1]) then s else DropTrailingSpaces(s[..|s| - 1])
  }

  /** Python's `s.strip()`. */
  function Strip(s: string): string
  {
    DropTrailingSpaces(DropSpaces(s))
  }

  /** Text that starts and ends with non-whitespace is its own `strip()`. */
  lemma StripTrimmed(s: string)
    requires |s| > 0 && !IsSpace(s[0]) && !IsSpace(s[|s| - 1])
    ensures Strip(s) == s
  {
    assert DropSpaces(s) == s;
  }

  /** Words joined by spaces are their own `strip()`. */
  lemma StripJoinWords(ws: seq<string>)
    requires |ws| > 0 && forall i :: 0 <= i < |ws| ==> IsWord(ws[i])
    ensures Strip(JoinWords(ws)) == JoinWords(ws)
  {
    JoinWordsStart(ws);
    JoinWordsEnd(ws);
    StripTrimmed(JoinWords(ws));
  }

  // ---------------------------------------------------------------------------
  // Lines of a text file

  predicate IsLineBreak(c: char) {
    c == '\n' || c == '\r'
  }

  /** The number of characters before the first line break of `s`. */
  function LineBodyLength(s: string): (n: nat)
    ensures n <= |s|
    ensures forall i :: 0 <= i < n ==> !IsLineBreak(s[i])
    ensures n == |s| || IsLineBreak(s[n])
  {
    if |s| == 0 || IsLineBreak(s[0]) then 0 else 1 + LineBodyLength(s[1..])
  }

  /** The lines Python yields when iterating a text file opened in the default
      universal-newline mode: each ends in `"\n"` (translated from `"\n"`,
      `"\r\n"` or `"\r"`) except an unterminated last line. */
  function Lines(s: string): (r: seq<string>)
    ensures |s| == 0 <==> |r| == 0
    decreases |s|
  {
    if |s| == 0 then []
    else
      var n := LineBodyLength(s);
      if n == |s| then [s]
      else
        var breakLength := if s[n] == '\r' && n + 1 < |s| && s[n + 1] == '\n' then 2 else 1;
        [s[..n] + "\n"] + Lines(s[n + breakLength..])
  }

  /** Lines each followed by `"\n"`, as a program writes them. */
  function Unlines(ls: seq<string>): string
  {
    if |ls| == 0 then "" else ls[0] + "\n" + Unlines(ls[1..])
  }

  /** Each line with its terminating `"\n"`. */
  function Terminated(ls: seq<string>): (r: seq<string>)
    ensures |r| == |ls|
  {
    if |ls| == 0 then [] else [ls[0] + "\n"] + Terminated(ls[1..])
  }

  /** Iterating a file written one line per `"\n"` yields those lines, each
      with its `"\n"`. */
  lemma {:induction false} LinesUnlines(ls: seq<string>)
    requires forall i, j :: 0 <= i < |ls| && 0 <= j < |ls[i]| ==> !IsLineBreak(ls[i][j])
    ensures Lines(Unlines(ls)) == Terminated(ls)
  {
    if |ls| > 0 {
      var s := Unlines(ls);
      var rest := Unlines(ls[1..]);
      assert s == ls[0] + "\n" + rest;
      assert s[|ls[0]|] == '\n';
      assert forall j :: 0 <= j < |ls[0]| ==> s[j] == ls[0][j];
      assert LineBodyLength(s) == |ls[0]|;
      assert s[..|ls[0]|] == ls[0];
      assert s[|ls[0]| + 1..] == rest;
      LinesUnlines(ls[1..]);
    }
  }

  /** The characters Python's `str.splitlines` breaks at. */
  predicate IsLineBoundary(c: char) {
    var n := c as int;
    (0x0A <= n <= 0x0D) || (0x1C <= n <= 0x1E) || n == 0x85 || n == 0x2028 || n == 0x2029
  }

  /** The number of characters before the first line boundary of `s`. */
  function SegmentLength(s: string): (n: nat)
    ensures n <= |s|
    ensures forall i :: 0 <= i < n ==> !IsLineBoundary(s[i])
    ensures n == |s| || IsLineBoundary(s[n])
  {
    if |s| == 0 || IsLineBoundary(s[0]) then 0 else 1 + SegmentLength(s[1..])
  }

  /** Python's `s.splitlines()`: the lines without their terminators, a
      `"\r\n"` pair counting as one break and a final break adding no empty
      line. */
  function SplitLines(s: string): (r: seq<string>)
    ensures forall i, j :: 0 <= i < |r| && 0 <= j < |r[i]| ==> !IsLineBoundary(r[i][j])
    decreases |s|
  {
    if |s| == 0 then []
    else
      var n := SegmentLength(s);
      if n == |s| then [s]
      else
        var breakLength := if s[n] == '\r' && n + 1 < |s| && s[n + 1] == '\n' then 2 else 1;
        [s[..n]] + SplitLines(s[n + breakLength..])
  }

  /** `splitlines` recovers lines written one per `"\n"`. */
  lemma {:induction false} SplitLinesUnlines(ls: seq<string>)
    requires forall i, j :: 0 <= i < |ls| && 0 <= j < |ls[i]| ==> !IsLineBoundary(ls[i][j])
    ensures SplitLines(Unlines(ls)) == ls
  {
    if |ls| > 0 {
      var s := Unlines(ls);
      var rest := Unlines(ls[1..]);
      assert s == ls[0] + "\n" + rest;
      assert s[|ls[0]|] == '\n';
      assert forall j :: 0 <= j < |ls[0]| ==> s[j] == ls[0][j];
      assert SegmentLength(s) == |ls[0]|;
      assert s[..|ls[0]|] == ls[0];
      assert s[|ls[0]| + 1..] == rest;
      SplitLinesUnlines(ls[1..]);
      assert [ls[0]] + ls[1..] == ls;
    }
  }

  // ---------------------------------------------------------------------------
  // Decimal integers

  predicate IsDigit(c: char) {
    '0' <= c <= '9'
  }

  function DigitValue(c: char): (d: nat)
    requires IsDigit(c)
    ensures d < 10
  {
    (c as int) - ('0' as int)
  }

  function DigitChar(d: nat): (c: char)
    requires d < 10
    ensures IsDigit(c) && DigitValue(c) == d
  {
    (('0' as int) + d) as char
  }

  /** The body Python's `int()` accepts after an optional sign: decimal digits,
      with single underscores allowed between two digits. */
  predicate ValidDigits(s: string) {
    && |s| > 0
    && IsDigit(s[0])
    && IsDigit(s[|s| - 1])
    && (forall i :: 0 <= i < |s| ==> IsDigit(s[i]) || s[i] == '_')
    && (forall i :: 0 <= i < |s| - 1 ==> IsDigit(s[i]) || IsDigit(s[i + 1]))
  }

  /** The value of the digits of `s`, underscores ignored. */
  function DigitsValue(s: string): nat
    requires forall i :: 0 <= i < |s| ==> IsDigit(s[i]) || s[i] == '_'
  {
    if |s| == 0 then 0
    else if s[|s| - 1] == '_' then DigitsValue(s[..|s| - 1])
    else DigitsValue(s[..|s| - 1]) * 10 + DigitValue(s[|s| - 1])
  }

  /** Python's `int(s)` for base ten: `None` where Python raises `ValueError`.
      Digits of scripts other than ASCII are not accepted here. */
  function ParseInt(s: string): (r: Option<int>)
    ensures r.Some? ==> |Strip(s)| > 0
    ensures r.Some? && r.value < 0 ==> Strip(s)[0] == '-'
  {
    var t := Strip(s);
    if |t| > 0 && (t[0] == '+' || t[0] == '-') then
      var body := t[1..];
      if ValidDigits(body) then
        var v: int := DigitsValue(body);
        Some(if t[0] == '-' then -v else v)
      else None
    else if ValidDigits(t) then Some(DigitsValue(t))
    else None
  }

  /** The decimal rendering of a natural number, as Python's `str()` writes it. */
  function ShowNat(n: nat): (r: string)
    ensures |r| > 0
    ensures forall i :: 0 <= i < |r| ==> IsDigit(r[i])
  {
    if n < 10 then [DigitChar(n)] else ShowNat(n / 10) + [DigitChar(n % 10)]
  }

  /** The decimal rendering of an integer, as Python's `str()` writes it. */
  function ShowInt(i: int): string
  {
    if i < 0 then "-" + ShowNat(-i) else ShowNat(i)
  }

  lemma {:induction false} DigitsValueShowNat(n: nat)
    ensures DigitsValue(ShowNat(n)) == n
  {
    if n >= 10 {
      var s := ShowNat(n);
      DigitsValueShowNat(n / 10);
      assert s[..|s| - 1] == ShowNat(n / 10);
    }
  }

  lemma DigitNotSpace(c: char)
    requires IsDigit(c) || c == '-'
    ensures !IsSpace(c)
  {
  }

  lemma StripWord(s: string)
    requires forall i :: 0 <= i < |s| ==> !IsSpace(s[i])
    ensures Strip(s) == s
  {
    var t := DropSpaces(s);
    if |s| > 0 {
      assert !IsSpace(s[0]);
    }
    assert t == s;
  }

  /** The rendering of a natural number is a valid digit body worth that number. */
  lemma ShowNatDigits(n: nat)
    ensures ValidDigits(ShowNat(n)) && DigitsValue(ShowNat(n)) == n
    ensures forall k :: 0 <= k < |ShowNat(n)| ==> !IsSpace(ShowNat(n)[k])
  {
    var digits := ShowNat(n);
    DigitsValueShowNat(n);
    forall k | 0 <= k < |digits|
      ensures !IsSpace(digits[k])
    {
      DigitNotSpace(digits[k]);
    }
  }

  /** A minus sign followed by digits holds no whitespace. */
  lemma SignedNoSpace(digits: string)
    requires forall k :: 0 <= k < |digits| ==> !IsSpace(digits[k])
    ensures forall k :: 0 <= k < |"-" + digits| ==> !IsSpace(("-" + digits)[k])
  {
    var s := "-" + digits;
    forall k | 0 <= k < |s|
      ensures !IsSpace(s[k])
    {
      if k > 0 {
        assert s[k] == digits[k - 1];
      } else {
        DigitNotSpace('-');
      }
    }
  }

  /** `int(str(i)) == i` for a negative integer. */
  lemma ParseNegative(i: int)
    requires i < 0
    ensures ParseInt(ShowInt(i)) == Some(i)
  {
    var digits := ShowNat(-i);
    ShowNatDigits(-i);
    var s := "-" + digits;
    assert ShowInt(i) == s;
    SignedNoSpace(digits);
    StripWord(s);
    assert s[0] == '-' && s[1..] == digits;
  }

  /** `int(str(i)) == i` for a non-negative integer. */
  lemma ParseNonNegative(i: int)
    requires i >= 0
    ensures ParseInt(ShowInt(i)) == Some(i)
  {
    var s := ShowNat(i);
    assert ShowInt(i) == s;
    ShowNatDigits(i);
    StripWord(s);
    assert IsDigit(s[0]);
  }

  /** `int(str(i)) == i` for every integer. */
  lemma ParseShowInt(i: int)
    ensures ParseInt(ShowInt(i)) == Some(i)
  {
    if i < 0 {
      ParseNegative(i);
    } else {
      ParseNonNegative(i);
    }
  }
}

=== FILE: wrappers.dfy ===
/** Option and Result, the two datatypes the model uses for
    Python's `None` and for exceptions that escape an operation. */
module Wrappers {

  /** Python's `Optional[T]`: `None` or a present value. */
  datatype Option<+T> = None | Some(value: T)

  /** The outcome of an operation that may raise: its value, or the exception. */
  datatype Result<+R, +E> = Success(value: R) | Failure(error: E)

  /** The Python exception classes the modelled code can raise. */
  datatype PyError =
    | ValueError     // bad unpacking, `int()` of a malformed string, `min()` of an empty list
    | IndexError     // indexing past the end of a list
    | KeyError       // a missing dictionary key
    | StatisticsError
    | FileNotFoundError  // reading the modification time of an absent file
}
